=== FILE: README.md ===
# crm-epopee floor-plan handlers, modelled in Dafny

The repository serves the floor plans of a building (the "spaces" drawn on each
floor) through Netlify functions. Each function is an HTTP handler over one of two
stores: a Postgres database (tables `spaces`, `history_snapshots`, `space_versions`,
`floor_state`, `floor_layouts`, `floors`) or Netlify Blobs (key spaces `snapshots` and
`versions`). Every table and key space is partitioned by a `(building, floor)` scope.

This project models every handler as a total function
`Handle(req: Request, s: State, env: Env): Step`, where `State` holds all tables and
key spaces at once and `Step` pairs the response with the state after the request.
What a handler gets from outside the request and the stores is a parameter in `Env`:
ADMIN_TOKEN, the database clock `now()`, whether the database or store fails, the
`::timestamptz` cast, `new Date(...)`, and the order in which the Blobs store lists its
keys. A request runs atomically.

Modules:

- `Js`, `Text`, `Routing`, `Sorting`: JavaScript values and operators (`||`, `??`,
  `?.`, truthiness, template strings), string splitting, the `Bearer` prefix strip,
  Postgres' text-to-integer cast, path routing, and a stable descending sort.
- `HistoryLib`: the Blobs history library (`getVersion`, `setVersion`, `putSnapshot`,
  `getSnapshot`, `listSnapshots`, `getLatestSnapshot`).
- `Model`: the state, requests, responses and environment, and the scope operations
  shared by the handlers.
- `Api` (api.mjs), `HistoryRestore`, `HistorySave`, `HistorySql` (history.js),
  `HistoryGetSql` (history-get.mjs), `FloorVersionSql` (the nested floor-version.js),
  `SaveFloor`, `Spaces`, `HistoryList` (history-list.mjs), `HistoryGetBlobs`
  (history-get.js), `FloorVersionBlobs` (floor-version.mjs).
- `Scenarios`: properties spanning several requests (batch then list, batch then save,
  save then restore).

No handler compares versions. No handler ever calls `setVersion`, so a Blobs version
record changes only when something outside these handlers writes it.
`floor-version.js` creates a `floor_state` row at 0 and never changes it. A restore
writes no snapshot and touches no version. The model states exactly that: each
handler's contract lists what it may change, and everything else is equal to the
state before.

## Model

| member | source | states |
|---|---|---|
| `Js.Truthy` | netlify/functions/api.mjs:42 | the falsy values are exactly undefined, null, false, 0 and the empty string; every object and array is truthy |
| `Js.Str` | netlify/functions/_lib/history.js:18-19 | a template literal prints undefined as `undefined`, null as `null`, a string as itself, an integer in decimal and an object as `[object Object]` |
| `Js.Get` | netlify/functions/api.mjs:41 | reading a property gives a value exactly when the value is an object that has that property, and then it is that property's value |
| `Js.Or` | netlify/functions/api.mjs:49 | the `or` operator keeps a truthy value and gives the default for every falsy one, undefined included |
| `Js.Nullish` | netlify/functions/save-floor.js:23 | `v ?? d` keeps every value but null and undefined, so `false`, `0` and `""` survive |
| `Text.Split` | netlify/functions/api.mjs:9 | splitting gives at least one piece, no piece holds the separator, and joining the pieces with the separator gives back the input |
| `Text.StripBearer` | netlify/functions/api.mjs:35 | a header that does not start with `Bearer` and white space is kept whole; otherwise the result is the rest of the header after all the white space that follows the word |
| `Text.BearerRoundTrip` | netlify/functions/api.mjs:35 | the header `Bearer <token>` gives back the token, in either letter-case mode, when the token does not start with white space |
| `Text.ParseInt` | netlify/functions/api.mjs:82-90 | the id cast succeeds exactly when the text is an optional sign and at least one digit, with only white space around it, and the value fits the 32-bit id column; it then gives that value; anything else, an out-of-range id included, is an error |
| `Text.ParseIntRoundTrip` | netlify/functions/api.mjs:69-82 | an id of the column's range printed in decimal into the path is cast back to the same id |
| `Routing.NonEmpty` | netlify/functions/api.mjs:9 | `filter(Boolean)` keeps exactly the non-empty segments, each as often as it occurs, so no empty segment survives |
| `Routing.NonEmptyAppend` | netlify/functions/api.mjs:9 | filtering a concatenation is concatenating the filtered parts, so the kept segments stay in input order |
| `Routing.Segments` | netlify/functions/api.mjs:9 | every route segment is non-empty and holds no `/` |
| `Routing.IndexOf` | netlify/functions/api.mjs:10 | -1 exactly when the segment is absent; otherwise the position of its first occurrence |
| `Routing.Rest` | netlify/functions/api.mjs:9-11 | without an `api` segment the route is the whole path; with one it is everything after the first `api` |
| `Routing.SegmentsOfPath` | netlify/functions/api.mjs:9 | a path built from non-empty, slash-free segments is cut back into exactly those segments |
| `Routing.RestOfApiPath` | netlify/functions/api.mjs:9-11 | for a path `<prefix>/api/<route>` where the prefix has no `api`, the route is exactly `<route>` |
| `Routing.NoApiSegment` | netlify/functions/api.mjs:10-11 | a path without an `api` segment is routed on all of its segments, because `indexOf` gives -1 and the slice starts at 0 |
| `Sorting.SortDesc` | netlify/functions/api.mjs:29 | the result is ordered by the key, largest first, and is a permutation of the input |
| `Sorting.SortDescOfSorted` | netlify/functions/_lib/history.js:61 | the sort is stable: input already in order, equal keys included, comes back unchanged |
| `Sorting.PrefixHoldsLargest` | netlify/functions/history.js:15-16 | cutting a sorted sequence after `k` elements keeps the `k` largest keys; nothing left out is larger than the last element kept |
| `Sorting.SortDescOfAscending` | netlify/functions/api.mjs:29 | keys strictly increasing in input order are sorted into exactly the reverse order |
| `Sorting.InsertSmallest` | netlify/functions/api.mjs:29 | an element whose key is below every key already sorted is placed last |
| `Sorting.Top` | netlify/functions/history.js:15-16 | `order by ... desc limit n`: at most `n` elements, largest first, taken from the input without repetition, and none left out is larger than the last one kept |
| `HistoryLib.VKey` | netlify/functions/_lib/history.js:18 | the version key is the building, one bar, then the floor |
| `HistoryLib.ScopePrefix` | netlify/functions/_lib/history.js:52 | the listing prefix is the scope's version key followed by one more bar |
| `HistoryLib.SKey` | netlify/functions/_lib/history.js:19 | every snapshot key of a scope starts with the building, the floor and two bar separators, and ends with the timestamp text |
| `HistoryLib.GetVersion` | netlify/functions/_lib/history.js:22-28 | a missing or empty record reads as version 0; a record that is not JSON throws; a stored record keeps all its fields, and its `version_n` becomes 0 when it is not a number |
| `HistoryLib.SetVersion` | netlify/functions/_lib/history.js:30-34 | the scope's key now holds exactly `{version_n: n}`, that record is returned, and every other key is unchanged |
| `HistoryLib.SetThenGetVersion` | netlify/functions/_lib/history.js:22-34 | `getVersion` after `setVersion(n)` returns `{version_n: n}` |
| `HistoryLib.SetVersionLeavesOthers` | netlify/functions/_lib/history.js:30-34 | writing one scope's version does not change what `getVersion` reads for any other key |
| `HistoryLib.ScopeKeysCanCollide` | netlify/functions/_lib/history.js:18 | two different scopes can share a version key when a name contains the bar separator |
| `HistoryLib.VKeyInjective` | netlify/functions/_lib/history.js:18 | when neither name contains the bar separator, different scopes have different version keys |
| `HistoryLib.SKeyInjective` | netlify/functions/_lib/history.js:19 | when no name or timestamp contains the bar separator, different snapshots have different keys |
| `HistoryLib.PutSnapshot` | netlify/functions/_lib/history.js:37-42 | the record is stored under its scope and its own `created_at`, replacing what that key held; the key is returned; nothing else changes |
| `HistoryLib.GetSnapshot` | netlify/functions/_lib/history.js:44-48 | the exact key's record; null when the key is missing or empty; throws when it does not hold JSON |
| `HistoryLib.PutThenGetSnapshot` | netlify/functions/_lib/history.js:37-48 | a record that was put is read back at its own timestamp |
| `HistoryLib.PutOverwrites` | netlify/functions/_lib/history.js:37-42 | two puts in one scope with the same timestamp leave one key, holding the second record |
| `HistoryLib.Matched` | netlify/functions/_lib/history.js:53-59 | the records collected are exactly those of listed keys with the scope prefix that hold JSON; empty and unparsable keys are skipped |
| `HistoryLib.ListSnapshots` | netlify/functions/_lib/history.js:50-63 | the list is newest first by `new Date(created_at)` and is a permutation of the collected records |
| `HistoryLib.ListSnapshotsExactly` | netlify/functions/_lib/history.js:50-63 | when the store lists every key, a record is in the list exactly when some key with the scope prefix holds it |
| `HistoryLib.PutThenListed` | netlify/functions/_lib/history.js:37-63 | a record that was put appears in its scope's list |
| `HistoryLib.GetLatestSnapshot` | netlify/functions/_lib/history.js:65-68 | null exactly when the scope has no record; otherwise a listed record that no other listed record is newer than |
| `Model.ScopeRows` | netlify/functions/api.mjs:28 | exactly the rows of the scope |
| `Model.OtherRows` | netlify/functions/api.mjs:47 | exactly the rows of every other scope, which a scope delete leaves behind |
| `Model.OrderById` | netlify/functions/history-save.js:16 | the same rows, in ascending id order |
| `Model.EditProps` | netlify/functions/api.mjs:49 | the attributes are exactly the feature's `options.ep` when that value is truthy, and `{}` when it is absent or falsy, so they are always truthy |
| `Model.NewRows` | netlify/functions/api.mjs:48-60 | the rows' geometries are exactly the features in order; all rows are in the scope, with increasing ids from the serial's next value, an `updated_at` one tick later per insert when each insert is its own statement (the batch) or one shared time (the restore), and attributes taken from each row's own feature (or none for a restore) |
| `Model.ReplaceScope` | netlify/functions/api.mjs:45-61 | delete then insert: the other scopes' rows are followed by the new ones, the serial advances by their number, and no other table changes |
| `Model.ReplaceScopeRows` | netlify/functions/api.mjs:45-61 | after a scope replace the scope holds exactly the new rows and every other scope holds its old rows |
| `Model.ReplaceKeepsWellFormed` | netlify/functions/api.mjs:45-61 | a scope replace keeps the ids increasing in table order and below the serial |
| `Api.SafeParse` | netlify/functions/api.mjs:125 | a body that parses gives its value; an absent, empty or unparsable body gives `{}` |
| `Api.WriteToken` | netlify/functions/api.mjs:35 | no Authorization header gives the empty token; a header without a leading `Bearer` word and white space (any letter case) is the token as it is; otherwise the token is what follows the white space |
| `Api.ValidBatch` | netlify/functions/api.mjs:40-43 | a batch body is accepted exactly when it is an object with a truthy building, a truthy floor and an array of features |
| `Api.ListSpaces` | netlify/functions/api.mjs:17-32 | missing scope gives 400; a database error gives 500; otherwise the scope's rows, most recently updated first, and nothing is written |
| `Api.Batch` | netlify/functions/api.mjs:38-67 | an invalid payload gives 400 and a database error gives 500, both with no write; otherwise the scope holds one row per feature in posted order, each stamped later than the one before, the count is the number of features, and every other scope and table is unchanged |
| `Api.UpdateById` | netlify/functions/api.mjs:75-84 | every row with the id gets the new `geom`, attributes and clock and keeps its scope; every other row is unchanged |
| `Api.FirstWithId` | netlify/functions/api.mjs:85 | null exactly when no row has the id; otherwise a row with that id |
| `Api.PutById` | netlify/functions/api.mjs:69-86 | an id that is not an integer, or a database error, gives 500; otherwise only the row with the id is rewritten and the answer is that row or null |
| `Api.DeleteId` | netlify/functions/api.mjs:90 | exactly the rows whose id differs remain |
| `Api.DeleteById` | netlify/functions/api.mjs:88-92 | an id that is not an integer, or a database error, gives 500; otherwise the row with the id is gone and 200 is returned even when none existed |
| `Api.Handle` | netlify/functions/api.mjs:7-100 | OPTIONS gives 200; a route not starting with `spaces` gives 404; GET lists and never writes; a write with the wrong token gives 401; an authorized `POST .../batch`, `PUT .../:id` or `DELETE .../:id` is that operation, and any other authorized spaces route gives 404 with no write; only a successful write changes state, and then only `spaces` |
| `Api.AnonymousWriteWhenNoToken` | netlify/functions/api.mjs:5-36 | with ADMIN_TOKEN unset, a write without an Authorization header passes the token check |
| `Api.BearerHeaderPasses` | netlify/functions/api.mjs:35-36 | `Bearer <ADMIN_TOKEN>` passes the token check |
| `Api.HandlePreservesWellFormed` | netlify/functions/api.mjs:38-92 | every request keeps the ids of `spaces` increasing in table order and below the serial |
| `Api.DeleteKeepsIncreasing` | netlify/functions/api.mjs:90 | deleting by id keeps the remaining ids increasing and bounded |
| `HistoryRestore.FindSnapshot` | netlify/functions/history-restore.js:14-17 | none exactly when no row of the scope was taken at that instant; otherwise the first such row in table order |
| `HistoryRestore.RestoredFeatures` | netlify/functions/history-restore.js:21-31 | a falsy `features` restores nothing, an array restores its elements, a string restores its characters, and any other value cannot be iterated |
| `HistoryRestore.Handle` | netlify/functions/history-restore.js:4-39 | a non-POST gives 405, missing parameters 400, a missing snapshot 404, and a bad instant, database error or non-iterable features 500, all with no write; a restore replaces the scope's rows with the snapshot's features in order and counts them; `history_snapshots` and the other tables are never touched |
| `HistoryRestore.HandlePreservesWellFormed` | netlify/functions/history-restore.js:23-31 | a restore keeps the ids of `spaces` increasing and below the serial |
| `HistorySave.NoteOf` | netlify/functions/history-save.js:9 | the note is the parameter as given, empty included, and `""` only when it is absent |
| `HistorySave.Captured` | netlify/functions/history-save.js:15-19 | the captured features are the geometries of the scope's rows taken in ascending id order, one per row |
| `HistorySave.Handle` | netlify/functions/history-save.js:4-31 | a non-POST gives 405, a missing scope 400 and a database error 500, none writing; otherwise exactly one row is appended to `history_snapshots`, with the scope, the clock, the note (default empty) and the captured features, and nothing else changes |
| `HistorySave.CapturedInTableOrder` | netlify/functions/history-save.js:15-19 | in a well-formed table a save captures the scope's geometries in table order |
| `HistoryGetSql.AtInstant` | netlify/functions/history-get.mjs:12-18 | none exactly when no version of the scope has that `created_at`; otherwise the first such row |
| `HistoryGetSql.Newest` | netlify/functions/history-get.mjs:19-25 | none exactly when the scope has no version; otherwise one of the scope's versions that no other is newer than |
| `HistoryGetSql.Handle` | netlify/functions/history-get.mjs:4-38 | read-only; a missing scope gives 400, a database error 500, and otherwise 500 exactly for an `at` the cast rejects; with `at`, 200 with the first row of the scope taken at that instant whenever there is one, 404 exactly when there is none; without `at`, 200 with a row no other row of the scope is newer than whenever the scope has one, 404 exactly when it has none |
| `HistoryGetSql.ReadBackAtInstant` | netlify/functions/history-get.mjs:12-27 | a stored version asked for at its own instant is answered with 200, and with that very row when no other row of the scope shares the instant |
| `HistoryGetSql.NewestReadBack` | netlify/functions/history-get.mjs:12-27 | the newest version returned without `at`, asked for again at its instant, is answered with 200 and a row of that same instant |
| `HistorySql.ArrayLength` | netlify/functions/history.js:12 | NULL features give a null count, an array its length, and any other JSON value an error |
| `HistorySql.Selected` | netlify/functions/history.js:11-18 | at most 50 rows, all of the scope, newest first, taken from the scope without repetition, and no scope row left out is newer than the last one listed |
| `HistorySql.EntriesOf` | netlify/functions/history.js:11-20 | one entry per row with its `at`, `note` and count, or an error exactly when some row's features have no array length |
| `HistorySql.Handle` | netlify/functions/history.js:4-25 | read-only; a missing scope gives 400 and a database error 500; otherwise one entry for each selected row, in order, at most 50 |
| `HistorySql.ListedNewestFirst` | netlify/functions/history.js:11-20 | a successful listing is newest first and each entry comes from a row of the scope |
| `FloorVersionSql.EnsureRow` | netlify/functions/netlify/functions/floor-version.js:12-17 | an existing row is left as it is; a missing one is created at 0; no other scope changes |
| `FloorVersionSql.Handle` | netlify/functions/netlify/functions/floor-version.js:3-30 | a missing scope gives 400 and a database error 500, neither writing; otherwise the scope's version is reported, 0 for a new scope, and at most that one row is created |
| `FloorVersionSql.Idempotent` | netlify/functions/netlify/functions/floor-version.js:12-23 | asking again gives the same answer and the same state |
| `SaveFloor.PresentedToken` | netlify/functions/save-floor.js:27-29 | a non-empty `x-admin-token` is the token; otherwise the Authorization header with a leading `Bearer` word and white space removed, or `""` without one |
| `SaveFloor.Authorized` | netlify/functions/save-floor.js:30 | a POST passes exactly when ADMIN_TOKEN is set and the presented token equals it |
| `SaveFloor.PostedLayout` | netlify/functions/save-floor.js:32 | an absent body gives `{}`; a body that is not JSON, or `null`, throws; otherwise the body's `layout`, or `{}` when it has none |
| `SaveFloor.Handle` | netlify/functions/save-floor.js:12-45 | a missing scope gives 400 before any method is looked at; GET reads the layout or `{}`; POST without the right token gives 401; OPTIONS gives `{}`; other methods 405; only an authorized POST that succeeds writes, and it writes only that scope's layout (and its unmodelled `updated_at`) |
| `SaveFloor.NoWritesWithoutAdminToken` | netlify/functions/save-floor.js:27-30 | with ADMIN_TOKEN unset no request writes |
| `SaveFloor.AdminHeaderWins` | netlify/functions/save-floor.js:27-30 | a non-empty `x-admin-token` alone decides, whatever the Authorization header says |
| `SaveFloor.BearerAccepted` | netlify/functions/save-floor.js:27-30 | without `x-admin-token`, `Bearer <ADMIN_TOKEN>` is accepted |
| `SaveFloor.SaveThenLoad` | netlify/functions/save-floor.js:18-41 | a GET after a successful POST returns the posted layout, and `{}` when `null` was posted |
| `Spaces.Credential` | netlify/functions/spaces.js:13 | there is a credential exactly when an Authorization header is present |
| `Spaces.Admitted` | netlify/functions/spaces.js:13-14 | a request passes exactly when ADMIN_TOKEN is unset, or an Authorization header is present and, after a leading `Bearer` and white space are removed, equals ADMIN_TOKEN |
| `Spaces.PostedFields` | netlify/functions/spaces.js:19 | an absent body reads as `{}`; a body that is not JSON, or `null`, throws |
| `Spaces.PostedScope` | netlify/functions/spaces.js:19-28 | a string building or floor is bound as it is and a number as its decimal text |
| `Spaces.Loaded` | netlify/functions/spaces.js:32-40 | an absent parameter or a scope without a row gives `{}`; a stored falsy layout gives `{}`; otherwise the stored layout |
| `Spaces.Handle` | netlify/functions/spaces.js:9-44 | OPTIONS gives 204 without auth; with ADMIN_TOKEN set a missing or wrong credential gives 401; POST without a truthy building and floor gives 400; GET never writes; only a successful POST writes, and it writes only the posted scope's layout, `{}` for a null or absent one (and its unmodelled `updated_at`) |
| `Spaces.OpenWithoutAdminToken` | netlify/functions/spaces.js:14 | with ADMIN_TOKEN unset every request passes the guard |
| `Spaces.MissingHeaderRefused` | netlify/functions/spaces.js:13-16 | with ADMIN_TOKEN set a request without an Authorization header gets 401 and changes nothing |
| `Spaces.BearerAdmitted` | netlify/functions/spaces.js:13-14 | `Bearer <ADMIN_TOKEN>` passes the guard |
| `Spaces.SaveThenLoad` | netlify/functions/spaces.js:18-40 | a GET after a successful POST of a truthy layout returns that layout |
| `HistoryList.Summarize` | netlify/functions/history-list.mjs:13-21 | building, floor, timestamps, author and version are copied as they are; a falsy note becomes `""` and a falsy size 0 |
| `HistoryList.Handle` | netlify/functions/history-list.mjs:4-26 | read-only; a missing scope gives 400 and a store error 500; otherwise one summary per listed record, in list order, newest first |
| `HistoryList.ListsStoredRecords` | netlify/functions/history-list.mjs:11-22 | when the store lists every key, each record stored under the scope prefix is summarized |
| `HistoryGetBlobs.Handle` | netlify/functions/history-get.js:4-20 | read-only; a missing parameter gives 400; a store error or unparsable record 500; a missing or empty key 404; otherwise the record's size, note and `created_at` |
| `HistoryGetBlobs.PutThenGet` | netlify/functions/history-get.js:12-16 | a record that was put is found by its own timestamp and its metadata returned |
| `FloorVersionBlobs.Handle` | netlify/functions/floor-version.mjs:4-16 | read-only; a missing scope gives 400 and a store error or unparsable record 500; otherwise the record `getVersion` reads, whose `version_n` is always a number |
| `FloorVersionBlobs.UnwrittenIsZero` | netlify/functions/floor-version.mjs:11-12 | a scope nobody has written reports `{version_n: 0}` |
| `FloorVersionBlobs.ReportsWrittenVersion` | netlify/functions/floor-version.mjs:11-12 | after `setVersion(n)` the handler reports `{version_n: n}` |
| `Scenarios.BatchThenList` | netlify/functions/api.mjs:17-67 | listing a scope right after a batch returns the posted features newest first, that is in reverse of the posted order, because each insert took a later `now()` |
| `Scenarios.RestoreThenList` | netlify/functions/history-restore.js:23-31 | listing a scope right after a restore returns the snapshot's features in snapshot order, because the restore's inserts share one transaction's `now()` and the sort keeps table order among equal times |
| `Scenarios.BatchThenSave` | netlify/functions/history-save.js:15-19 | a save right after a batch captures exactly the posted features, in order |
| `Scenarios.SaveThenRestore` | netlify/functions/history-restore.js:14-31 | restoring at the instant of a save gives the scope back the geometries it had when saved, in order, with attributes cleared, other scopes and history unchanged |
| `Scenarios.RestoreTwice` | netlify/functions/history-restore.js:14-31 | restoring the same snapshot twice leaves the geometries as the first restore left them |

## Left out

- `Api.Handle`: api.mjs is the one handler written as `export default async (event)`;
  the others export `handler`. Netlify calls a default export with a Web `Request` and
  a `Context`, where `httpMethod`, `path` and `queryStringParameters` do not exist, and
  it expects a `Response` back rather than a `{statusCode, headers, body}` object. The
  model assumes the Lambda-style event the code destructures and the plain response
  object it returns, as if the function were deployed with that signature.
- `HistoryGetSql.Handle`: `space_versions.created_at` is taken as never NULL
  (`VersionRow.createdAt` is an integer). `ORDER BY created_at DESC` puts NULLs first in
  Postgres, so without `at` a row with a NULL `created_at` would be the one returned.
- Transport: HTTP framing, response headers (CORS, `content-type`, `Cache-Control`),
  the exact JSON text of bodies, and `console.error` logging.
- The Postgres, Neon and Blobs drivers and connection setup. Environment variables
  appear only as `Env.adminToken`; the connection URLs and the Blobs site options are
  not modelled.
- Error details: the `detail` field of api.mjs's 500 body and the exception messages
  that history-list.mjs, history-get.js and floor-version.mjs print are one `Failure`
  payload.
- Concurrency. Every request is atomic. In the code, the restore's BEGIN, statements
  and COMMIT go through a pool, and the batch's `begin`/`commit` go through Neon's HTTP
  driver; neither need run on one connection. Interleavings are not modelled.
- Failure granularity: `Env.fault` fails a handler's first database or store call. A
  failure after some statements have run is taken as leaving no write. For the batch
  this is more than the code gives: its `begin`, `commit` and `rollback` are separate
  requests of Neon's HTTP driver, so the rows deleted and inserted before the failure
  stay.
- JSON parsing and timestamp handling are parameters: the body arrives already
  parsed (`Body`), the `::timestamptz` cast is `Env.castInstant`, `new Date(...)` is
  `Env.dateOf`, and `now()` is `Env.now`. `history_snapshots.at` and
  `spaces.updated_at` are assumed to default to `now()`.
- Clock per statement: `now()` is the start time of the statement's transaction. Each
  `sql` call of the batch is its own transaction, so its inserts are stamped
  `Env.now`, `Env.now + 1`, and so on: only their order is modelled, not the actual
  gap. The restore's statements are taken to run in the one transaction its BEGIN
  opens, on the pool's one reused connection, so its rows share `Env.now`; if the pool
  handed out another connection, the rows would be stamped like the batch's.
- `SaveFloor.Handle` and `Spaces.Handle`: the upserts also set the row's `updated_at`
  to `now()` (save-floor.js:34-37, spaces.js:22-26). Neither handler reads it back,
  and the model keeps only the layout of `floor_layouts` and `floors`, so this column
  is not modelled.
- Numbers are integers; floating point is not modelled.
- `Api.Batch`: the attribute columns come from `options.ep` through `num`/`int`
  coercions (api.mjs:123-124). The model keeps `options.ep` whole (`props`) instead of
  the eleven converted columns.
- `Api.Batch`: each feature is passed to the driver as it is. The driver sends a string
  as raw text and an array as a Postgres array literal, so a feature such as `"abc"` or
  `[1,2]` makes the `jsonb` insert fail (500) and `"[1]"` is stored as an array. The
  model stores every feature as given and answers 200.
- `Api.PutById`: the same coercions apply to the updated columns and are not modelled.
- `Api.PutById`: `geom` goes to the driver the same way, so a string or array `geom`
  fails or is converted as for the batch, and a missing `geom` is stored as SQL NULL.
  The model stores the value as given, with JSON `null` for a missing one.
- `Spaces.Handle`: `layout ?? {}` goes to the pg driver the same way, so a string or
  array layout makes the upsert fail or stores other JSON. The model stores the value
  as given.
- `Text.ParseInt`: the Postgres 16 input syntax for integers (`_` between digits and
  `0x`, `0o`, `0b` prefixes) is not modelled; the cast follows the older syntax of a
  sign and decimal digits. The path segment is taken as the function receives it,
  with no URL decoding. The `spaces.id` column is assumed to be `integer` (a `serial`):
  no schema is part of the repository, and with a `bigint` (`bigserial`) column the
  cast would accept ids up to 2^63 - 1 instead of answering 500 above 2^31 - 1.
- Query parameters are one string each. Repeated parameters and invalid `rawUrl`
  values (which make `new URL` throw) are not modelled. Header names are taken as
  lower case.
- Scope values that are not strings: the drivers turn numbers into their decimal text
  (as `Str` does); objects and arrays are turned into JSON or Postgres array text,
  which is not modelled.
- `SaveFloor.PostedLayout`: a layout that is a string or an array is passed to the
  driver, which would turn it into text or a Postgres array; the model stores the
  value as given.
- Blobs records that are JSON but not objects (`null`, numbers, strings) are not
  modelled; a stored record is an object, an empty value, or text that is not JSON.
- `HistoryLib.ListSnapshots`: every record is taken to have a valid date.
  `Env.dateOf` gives an integer, but `new Date(created_at)` is NaN when `created_at` is
  missing or not a date. The comparator then gives NaN, and the order `sort` produces
  is implementation-defined. Handlers never write such records; only an outside writer
  can.
- `HistoryLib.ListSnapshots`: the listing is a sequence of keys (`Env.listing`), as
  the library's own comment describes `store.list`. The shape the Blobs client
  actually returns is not modelled.
- SQL ties: rows with equal sort keys, and `LIMIT 1` without an order, come back in
  table order.
- `HistorySql.ArrayLength`: whether Postgres evaluates `jsonb_array_length` on rows
  cut by `limit 50` is left open. An error is raised only for a selected row.
- `HistoryRestore.RestoredFeatures`: a string snapshot with characters outside the
  Basic Multilingual Plane reports its length in code points, but JavaScript counts
  UTF-16 units.
- `FloorVersionSql.Handle`: a failing `client.connect()` escapes the handler instead of
  giving 500; only a failing statement is modelled.
- `_db.js` (the shared pool) is not part of this model.

=== FILE: api.dfy ===
/** The `api` function (netlify/functions/api.mjs): `GET /api/spaces` lists a scope's
    rows, and three admin writes change them: `POST /api/spaces/batch` replaces the whole
    scope, `PUT /api/spaces/:id` rewrites one row and `DELETE /api/spaces/:id` removes
    one row. The batch's `begin`, statements, `commit` and `rollback` are separate
    requests of Neon's HTTP driver, so the code rolls nothing back; the model takes the
    batch as one atomic step. */
module Api {
  import opened Js
  import opened Text
  import opened Routing
  import opened Sorting
  import opened Model

  /** `safeParse(body)`: `{}` when the body is absent, empty or not JSON. */
  function SafeParse(b: Body): (r: Json)
    ensures b.Parsed? ==> r == b.value
    ensures !b.Parsed? ==> r == EmptyObject
  {
    match b
    case Parsed(v) => v
    case _ => EmptyObject
  }

  /** `headers['authorization']?.replace(/^Bearer\s+/i, '') || ""` */
  function WriteToken(headers: map<string, string>): (r: string)
    ensures "authorization" !in headers ==> r == ""
    ensures "authorization" in headers && !BearerAt(headers["authorization"], true) ==> r == headers["authorization"]
    ensures "authorization" in headers && BearerAt(headers["authorization"], true) ==>
              var h := headers["authorization"];
              && |r| < |h| - 6 && r == h[|h| - |r|..]
              && (r == "" || !IsJsSpace(r[0]))
              && forall i :: 6 <= i < |h| - |r| ==> IsJsSpace(h[i])
  {
    if "authorization" in headers then StripBearer(headers["authorization"], true) else ""
  }

  /** The route starts with `spaces`. */
  predicate SpacesRoute(path: Option<string>)
  {
    var rest := Rest(path);
    |rest| > 0 && rest[0] == "spaces"
  }

  /** `GET /api/spaces?building=&floor=`: the scope's rows, most recently updated first. */
  function ListSpaces(req: Request, s: State, env: Env): (r: Step)
    ensures r.state == s
    ensures !ScopeGiven(req.query) ==> r.resp == Respond(400, Error("building and floor are required"))
    ensures ScopeGiven(req.query) && env.fault ==> r.resp == Respond(500, Error("Server error"))
    ensures ScopeGiven(req.query) && !env.fault ==>
              && r.resp.Respond? && r.resp.status == 200 && r.resp.body.Items?
              && multiset(r.resp.body.rows) == multiset(ScopeRows(s.spaces, ScopeOf(req.query)))
              && forall i, j :: 0 <= i < j < |r.resp.body.rows| ==>
                   r.resp.body.rows[i].updatedAt >= r.resp.body.rows[j].updatedAt
  {
    if !ScopeGiven(req.query) then Step(Respond(400, Error("building and floor are required")), s)
    else if env.fault then Step(Respond(500, Error("Server error")), s)
    else
      var rows := SortDesc(ScopeRows(s.spaces, ScopeOf(req.query)), ByUpdatedAt());
      assert forall i, j :: 0 <= i < j < |rows| ==> ByUpdatedAt()(rows[i]) >= ByUpdatedAt()(rows[j]);
      Step(Respond(200, Items(rows)), s)
  }

  /** `!building || !floor || !Array.isArray(features)` fails on the batch body. */
  predicate ValidBatch(payload: Json)
    ensures ValidBatch(payload) <==>
              && payload.JObj?
              && Truthy(Lookup(payload.fields, "building"))
              && Truthy(Lookup(payload.fields, "floor"))
              && "features" in payload.fields && payload.fields["features"].JArr?
  {
    var features := Get(Some(payload), "features");
    && Truthy(Get(Some(payload), "building"))
    && Truthy(Get(Some(payload), "floor"))
    && features.Some? && features.value.JArr?
  }

  /** The scope a batch body names; SQL receives the parameters as text. */
  function BatchScope(payload: Json): Scope
  {
    Scope(Str(Get(Some(payload), "building")), Str(Get(Some(payload), "floor")))
  }

  function BatchFeatures(payload: Json): seq<Json>
    requires ValidBatch(payload)
  {
    Get(Some(payload), "features").value.items
  }

  /** `POST /api/spaces/batch`: delete the scope's rows, then insert one row per feature,
      in order, each keeping the whole feature as `geom`. Each insert is a request of its
      own, so each row's `updated_at` is a later `now()` than the one before. A failing statement makes the
      handler answer 500; the model takes the batch as atomic, so it leaves no partial
      write. */
  function Batch(req: Request, s: State, env: Env): (r: Step)
    ensures !ValidBatch(SafeParse(req.body)) ==> r == Step(Respond(400, Error("Invalid payload")), s)
    ensures ValidBatch(SafeParse(req.body)) && env.fault ==> r == Step(Respond(500, Error("Server error")), s)
    ensures ValidBatch(SafeParse(req.body)) && !env.fault ==>
              var p := SafeParse(req.body);
              var sc := BatchScope(p);
              var xs := BatchFeatures(p);
              && r.resp == Respond(200, Written(|xs|))
              && ScopeRows(r.state.spaces, sc) == NewRows(sc, xs, s.nextId, env.now, true, true)
              && Geoms(ScopeRows(r.state.spaces, sc)) == xs
              && OtherRows(r.state.spaces, sc) == OtherRows(s.spaces, sc)
              && OnlySpacesChanged(s, r.state)
  {
    var p := SafeParse(req.body);
    if !ValidBatch(p) then Step(Respond(400, Error("Invalid payload")), s)
    else if env.fault then Step(Respond(500, Error("Server error")), s)
    else
      var sc := BatchScope(p);
      var xs := BatchFeatures(p);
      var added := NewRows(sc, xs, s.nextId, env.now, true, true);
      ReplaceScopeRows(s, sc, added);
      Step(Respond(200, Written(|xs|)), ReplaceScope(s, sc, added))
  }

  /** `UPDATE spaces SET geom, <attributes>, updated_at = now() WHERE id = :id` */
  function UpdateById(rows: seq<SpaceRow>, id: int, geom: Json, props: Json, now: int): (r: seq<SpaceRow>)
    ensures |r| == |rows|
    ensures forall i :: 0 <= i < |rows| && rows[i].id != id ==> r[i] == rows[i]
    ensures forall i :: 0 <= i < |rows| && rows[i].id == id ==>
              r[i] == SpaceRow(id, rows[i].scope, geom, props, now)
  {
    seq(|rows|, i requires 0 <= i < |rows| =>
      if rows[i].id == id then rows[i].(geom := geom, props := props, updatedAt := now) else rows[i])
  }

  /** `rows[0] || null` of `RETURNING *`: the first row with the id. */
  function FirstWithId(rows: seq<SpaceRow>, id: int): (r: Option<SpaceRow>)
    ensures r.None? <==> forall i :: 0 <= i < |rows| ==> rows[i].id != id
    ensures r.Some? ==> r.value in rows && r.value.id == id
  {
    if |rows| == 0 then None
    else if rows[0].id == id then Some(rows[0])
    else FirstWithId(rows[1..], id)
  }

  /** `PUT /api/spaces/:id`: rewrite the row with that id, whatever its scope; `geom` is the
      body's `geom` or null. The id segment is cast to an integer, and text that is not
      one makes the query fail (500). */
  function PutById(segment: string, req: Request, s: State, env: Env): (r: Step)
    ensures ParseInt(segment).None? || env.fault ==> r == Step(Respond(500, Error("Server error")), s)
    ensures ParseInt(segment).Some? && !env.fault ==>
              var id := ParseInt(segment).value;
              var p := SafeParse(req.body);
              && r.state == s.(spaces := r.state.spaces)
              && |r.state.spaces| == |s.spaces|
              && (forall i :: 0 <= i < |s.spaces| && s.spaces[i].id != id ==> r.state.spaces[i] == s.spaces[i])
              && (forall i :: 0 <= i < |s.spaces| && s.spaces[i].id == id ==>
                    && r.state.spaces[i].scope == s.spaces[i].scope
                    && r.state.spaces[i].geom == Or(Get(Some(p), "geom"), JNull)
                    && r.state.spaces[i].props == EditProps(p)
                    && r.state.spaces[i].updatedAt == env.now)
              && r.resp.Respond? && r.resp.status == 200 && r.resp.body.Item?
              && (r.resp.body.row.None? <==> forall i :: 0 <= i < |s.spaces| ==> s.spaces[i].id != id)
              && (r.resp.body.row.Some? ==> r.resp.body.row.value in r.state.spaces && r.resp.body.row.value.id == id)
  {
    match ParseInt(segment)
    case None => Step(Respond(500, Error("Server error")), s)
    case Some(id) =>
      if env.fault then Step(Respond(500, Error("Server error")), s)
      else
        var p := SafeParse(req.body);
        var rows := UpdateById(s.spaces, id, Or(Get(Some(p), "geom"), JNull), EditProps(p), env.now);
        Step(Respond(200, Item(FirstWithId(rows, id))), s.(spaces := rows))
  }

  /** `DELETE FROM spaces WHERE id = :id` */
  function DeleteId(rows: seq<SpaceRow>, id: int): (r: seq<SpaceRow>)
    ensures forall x :: x in r <==> x in rows && x.id != id
    ensures |r| <= |rows|
  {
    if |rows| == 0 then []
    else if rows[0].id == id then DeleteId(rows[1..], id)
    else [rows[0]] + DeleteId(rows[1..], id)
  }

  /** `DELETE /api/spaces/:id`: remove the row with that id, whatever its scope. */
  function DeleteById(segment: string, s: State, env: Env): (r: Step)
    ensures ParseInt(segment).None? || env.fault ==> r == Step(Respond(500, Error("Server error")), s)
    ensures ParseInt(segment).Some? && !env.fault ==>
              var id := ParseInt(segment).value;
              && r.resp == Respond(200, Done)
              && r.state == s.(spaces := r.state.spaces)
              && forall x :: x in r.state.spaces <==> x in s.spaces && x.id != id
  {
    match ParseInt(segment)
    case None => Step(Respond(500, Error("Server error")), s)
    case Some(id) =>
      if env.fault then Step(Respond(500, Error("Server error")), s)
      else Step(Respond(200, Done), s.(spaces := DeleteId(s.spaces, id)))
  }

  /** The handler: preflight, then routing on the path segments after `api`, then the
      admin-token gate for every method but GET, then the write routes; anything else is
      404. */
  function Handle(req: Request, s: State, env: Env): (r: Step)
    ensures r.resp.Respond?
    ensures req.httpMethod == "OPTIONS" ==> r == Step(Respond(200, NoContent), s)
    ensures req.httpMethod != "OPTIONS" && !SpacesRoute(req.path) ==> r == Step(Respond(404, Error("Not found")), s)
    ensures req.httpMethod == "GET" ==> r.state == s
    ensures (&& req.httpMethod != "OPTIONS" && req.httpMethod != "GET" && SpacesRoute(req.path)
             && WriteToken(req.headers) != env.adminToken)
            ==> r == Step(Respond(401, Error("Unauthorized")), s)
    ensures req.httpMethod == "GET" && SpacesRoute(req.path) ==> r == ListSpaces(req, s, env)
    ensures (&& req.httpMethod != "OPTIONS" && req.httpMethod != "GET" && SpacesRoute(req.path)
             && WriteToken(req.headers) == env.adminToken)
            ==> var rest := Rest(req.path);
                && (req.httpMethod == "POST" && |rest| > 1 && rest[1] == "batch" ==> r == Batch(req, s, env))
                && (req.httpMethod == "PUT" && |rest| > 1 ==> r == PutById(rest[1], req, s, env))
                && (req.httpMethod == "DELETE" && |rest| > 1 ==> r == DeleteById(rest[1], s, env))
                && (&& !(req.httpMethod == "POST" && |rest| > 1 && rest[1] == "batch")
                    && !(req.httpMethod in {"PUT", "DELETE"} && |rest| > 1)
                    ==> r == Step(Respond(404, Error("Not found")), s))
    ensures r.state != s ==>
              && req.httpMethod in {"POST", "PUT", "DELETE"}
              && SpacesRoute(req.path)
              && WriteToken(req.headers) == env.adminToken
              && !env.fault
              && r.resp.status == 200
              && OnlySpacesChanged(s, r.state)
  {
    var rest := Rest(req.path);
    if req.httpMethod == "OPTIONS" then Step(Respond(200, NoContent), s)
    else if !SpacesRoute(req.path) then Step(Respond(404, Error("Not found")), s)
    else if req.httpMethod == "GET" then ListSpaces(req, s, env)
    else if WriteToken(req.headers) != env.adminToken then Step(Respond(401, Error("Unauthorized")), s)
    else if req.httpMethod == "POST" && |rest| > 1 && rest[1] == "batch" then Batch(req, s, env)
    else if req.httpMethod == "PUT" && |rest| > 1 then PutById(rest[1], req, s, env)
    else if req.httpMethod == "DELETE" && |rest| > 1 then DeleteById(rest[1], s, env)
    else Step(Respond(404, Error("Not found")), s)
  }

  /** With ADMIN_TOKEN unset, a write without an Authorization header passes the gate. */
  lemma AnonymousWriteWhenNoToken(req: Request, env: Env)
    requires env.adminToken == ""
    requires "authorization" !in req.headers
    ensures WriteToken(req.headers) == env.adminToken
  {
  }

  /** A `Bearer <token>` header (any letter case of the word) carrying ADMIN_TOKEN passes. */
  lemma BearerHeaderPasses(req: Request, env: Env)
    requires env.adminToken == "" || !IsJsSpace(env.adminToken[0])
    requires "authorization" in req.headers && req.headers["authorization"] == "Bearer " + env.adminToken
    ensures WriteToken(req.headers) == env.adminToken
  {
    BearerRoundTrip(env.adminToken, true);
  }

  /** Every request keeps the ids of `spaces` increasing and below the serial. */
  lemma HandlePreservesWellFormed(req: Request, s: State, env: Env)
    requires WellFormed(s)
    ensures WellFormed(Handle(req, s, env).state)
  {
    var rest := Rest(req.path);
    if && req.httpMethod != "OPTIONS" && SpacesRoute(req.path) && req.httpMethod != "GET"
       && WriteToken(req.headers) == env.adminToken {
      if req.httpMethod == "POST" && |rest| > 1 && rest[1] == "batch" {
        assert Handle(req, s, env) == Batch(req, s, env);
        BatchPreservesWellFormed(req, s, env);
      } else if req.httpMethod == "PUT" && |rest| > 1 {
        assert Handle(req, s, env) == PutById(rest[1], req, s, env);
        PutPreservesWellFormed(rest[1], req, s, env);
      } else if req.httpMethod == "DELETE" && |rest| > 1 {
        assert Handle(req, s, env) == DeleteById(rest[1], s, env);
        DeletePreservesWellFormed(rest[1], s, env);
      }
    }
  }

  lemma BatchPreservesWellFormed(req: Request, s: State, env: Env)
    requires WellFormed(s)
    ensures WellFormed(Batch(req, s, env).state)
  {
    var p := SafeParse(req.body);
    if ValidBatch(p) && !env.fault {
      ReplaceKeepsWellFormed(s, BatchScope(p), BatchFeatures(p), env.now, true, true);
    }
  }

  lemma PutPreservesWellFormed(segment: string, req: Request, s: State, env: Env)
    requires WellFormed(s)
    ensures WellFormed(PutById(segment, req, s, env).state)
  {
    var r := PutById(segment, req, s, env).state;
    assert forall i :: 0 <= i < |r.spaces| ==> r.spaces[i].id == s.spaces[i].id;
  }

  lemma DeletePreservesWellFormed(segment: string, s: State, env: Env)
    requires WellFormed(s)
    ensures WellFormed(DeleteById(segment, s, env).state)
  {
    if ParseInt(segment).Some? && !env.fault {
      DeleteKeepsIncreasing(s.spaces, ParseInt(segment).value, s.nextId);
    }
  }

  lemma {:induction false} DeleteKeepsIncreasing(rows: seq<SpaceRow>, id: int, bound: int)
    requires IdsIncreasing(rows) && IdsBelow(rows, bound)
    ensures IdsIncreasing(DeleteId(rows, id)) && IdsBelow(DeleteId(rows, id), bound)
  {
    if |rows| > 0 {
      TailIncreasing(rows, bound);
      DeleteKeepsIncreasing(rows[1..], id, bound);
      var tail := DeleteId(rows[1..], id);
      if rows[0].id != id {
        assert forall i :: 0 <= i < |tail| ==> tail[i] in rows[1..];
        ConsIncreasing(rows[0], tail, bound);
      }
    }
  }
}

=== FILE: floor_version_blobs.dfy ===
/** `floor-version` over Blobs (netlify/functions/floor-version.mjs): the scope's version
    record as `getVersion` reads it. Read-only. */
module FloorVersionBlobs {
  import opened Js
  import opened HistoryLib
  import opened Model

  function Handle(req: Request, s: State, env: Env): (r: Step)
    ensures r.state == s
    ensures r.resp.Respond?
    ensures !ScopeGiven(req.query) ==> r.resp == Respond(400, Error("missing building/floor"))
    ensures ScopeGiven(req.query) && env.fault ==> r.resp == Respond(500, Failure)
    ensures ScopeGiven(req.query) && !env.fault ==>
              match GetVersion(s.versions, req.query["building"], req.query["floor"])
              case Throws => r.resp == Respond(500, Failure)
              case Returns(v) => r.resp == Respond(200, VersionDoc(v))
    ensures r.resp.status == 200 ==> r.resp.body.VersionDoc? && HasNumericVersion(r.resp.body.doc)
  {
    if !ScopeGiven(req.query) then Step(Respond(400, Error("missing building/floor")), s)
    else if env.fault then Step(Respond(500, Failure), s)
    else
      match GetVersion(s.versions, req.query["building"], req.query["floor"])
      case Throws => Step(Respond(500, Failure), s)
      case Returns(v) => Step(Respond(200, VersionDoc(v)), s)
  }

  /** A scope nobody has written reports version 0. */
  lemma UnwrittenIsZero(req: Request, s: State, env: Env)
    requires ScopeGiven(req.query) && !env.fault
    requires VKey(req.query["building"], req.query["floor"]) !in s.versions
    ensures Handle(req, s, env).resp == Respond(200, VersionDoc(map["version_n" := JNum(0)]))
  {
  }

  /** After `setVersion(b, f, n)` the handler reports `{version_n: n}`. */
  lemma ReportsWrittenVersion(req: Request, s: State, env: Env, n: int)
    requires ScopeGiven(req.query) && !env.fault
    ensures var written := s.(versions := SetVersion(s.versions, req.query["building"], req.query["floor"], n).0);
            Handle(req, written, env).resp == Respond(200, VersionDoc(map["version_n" := JNum(n)]))
  {
    SetThenGetVersion(s.versions, req.query["building"], req.query["floor"], n);
  }
}

=== FILE: floor_version_sql.dfy ===
/** `floor-version` over SQL (netlify/functions/netlify/functions/floor-version.js): make
    sure the scope has a `floor_state` row, starting at version 0, and report its
    `version_n`. An existing row is never changed. */
module FloorVersionSql {
  import opened Js
  import opened Model

  /** `INSERT ... VALUES (b, f, 0) ON CONFLICT DO NOTHING` */
  function EnsureRow(floorState: map<Scope, int>, sc: Scope): (r: map<Scope, int>)
    ensures sc in r
    ensures sc in floorState ==> r == floorState
    ensures sc !in floorState ==> r[sc] == 0 && r.Keys == floorState.Keys + {sc}
    ensures forall k :: k in floorState ==> k in r && r[k] == floorState[k]
  {
    if sc in floorState then floorState else floorState[sc := 0]
  }

  function Handle(req: Request, s: State, env: Env): (r: Step)
    ensures r.resp.Respond?
    ensures !ScopeGiven(req.query) ==> r == Step(Respond(400, Error("Missing building/floor")), s)
    ensures ScopeGiven(req.query) && env.fault ==> r == Step(Respond(500, Error("Server error")), s)
    ensures ScopeGiven(req.query) && !env.fault ==>
              var sc := ScopeOf(req.query);
              && r.state == s.(floorState := r.state.floorState)
              && sc in r.state.floorState
              && r.resp == Respond(200, Version(r.state.floorState[sc]))
              && (sc in s.floorState ==> r.state == s && r.resp.body.versionN == s.floorState[sc])
              && (sc !in s.floorState ==> r.resp.body.versionN == 0)
    ensures forall k :: k in s.floorState ==> k in r.state.floorState && r.state.floorState[k] == s.floorState[k]
    ensures r.state.floorState.Keys <= s.floorState.Keys + (if ScopeGiven(req.query) then {ScopeOf(req.query)} else {})
  {
    if !ScopeGiven(req.query) then Step(Respond(400, Error("Missing building/floor")), s)
    else if env.fault then Step(Respond(500, Error("Server error")), s)
    else
      var sc := ScopeOf(req.query);
      var t := s.(floorState := EnsureRow(s.floorState, sc));
      Step(Respond(200, Version(t.floorState[sc])), t)
  }

  /** Asking twice gives the same answer and leaves the state as the first call left it. */
  lemma Idempotent(req: Request, s: State, env: Env)
    ensures var first := Handle(req, s, env);
            Handle(req, first.state, env) == first
  {
  }
}

=== FILE: history_get_blobs.dfy ===
/** `history-get` over Blobs (netlify/functions/history-get.js): the metadata of the
    snapshot stored under an exact `building|floor|at` key. Read-only. */
module HistoryGetBlobs {
  import opened Js
  import opened HistoryLib
  import opened Model
  import HistoryList

  predicate ParamsGiven(query: map<string, string>)
  {
    ScopeGiven(query) && Given(Param(query, "at"))
  }

  function Handle(req: Request, s: State, env: Env): (r: Step)
    ensures r.state == s
    ensures r.resp.Respond?
    ensures !ParamsGiven(req.query) ==> r.resp == Respond(400, Error("missing building/floor/at"))
    ensures ParamsGiven(req.query) && env.fault ==> r.resp == Respond(500, Failure)
    ensures ParamsGiven(req.query) && !env.fault ==>
              var k := SKey(req.query["building"], req.query["floor"], req.query["at"]);
              && (k !in s.snapshots || s.snapshots[k].Blank? ==> r.resp == Respond(404, Error("not found")))
              && (k in s.snapshots && s.snapshots[k].Garbage? ==> r.resp == Respond(500, Failure))
              && (k in s.snapshots && s.snapshots[k].Stored? ==>
                    var d := s.snapshots[k].doc;
                    r.resp == Respond(200, Meta(Lookup(d, "size"), Lookup(d, "note"), CreatedAt(d))))
  {
    if !ParamsGiven(req.query) then Step(Respond(400, Error("missing building/floor/at")), s)
    else if env.fault then Step(Respond(500, Failure), s)
    else
      match GetSnapshot(s.snapshots, req.query["building"], req.query["floor"], req.query["at"])
      case Throws => Step(Respond(500, Failure), s)
      case Returns(None) => Step(Respond(404, Error("not found")), s)
      case Returns(Some(d)) =>
        Step(Respond(200, Meta(Lookup(d, "size"), Lookup(d, "note"), CreatedAt(d))), s)
  }

  /** A record put under a scope is found again by its own timestamp. */
  lemma PutThenGet(req: Request, s: State, env: Env, rec: Doc)
    requires ParamsGiven(req.query) && !env.fault
    requires req.query["at"] == AtText(rec)
    ensures var stored := s.(snapshots := PutSnapshot(s.snapshots, req.query["building"], req.query["floor"], rec).0);
            Handle(req, stored, env).resp
            == Respond(200, Meta(Lookup(rec, "size"), Lookup(rec, "note"), CreatedAt(rec)))
  {
    PutThenGetSnapshot(s.snapshots, req.query["building"], req.query["floor"], rec);
  }
}

=== FILE: history_get_sql.dfy ===
/** `history-get` over SQL (netlify/functions/history-get.mjs): one `space_versions` row
    of a scope, the one taken at an exact instant or else the newest. Read-only. */
module HistoryGetSql {
  import opened Js
  import opened Sorting
  import opened Model

  /** The `space_versions` rows of one scope, in table order. */
  function ScopeVersions(rows: seq<VersionRow>, sc: Scope): (r: seq<VersionRow>)
    ensures forall x :: x in r <==> x in rows && x.scope == sc
  {
    if |rows| == 0 then []
    else if rows[0].scope == sc then [rows[0]] + ScopeVersions(rows[1..], sc)
    else ScopeVersions(rows[1..], sc)
  }

  function ByCreatedAt(): VersionRow -> int
  {
    (v: VersionRow) => v.createdAt
  }

  /** `WHERE building=b AND floor=f AND created_at = at LIMIT 1`: the first such row in
      table order. */
  function AtInstant(rows: seq<VersionRow>, sc: Scope, t: int): (r: Option<VersionRow>)
    ensures r.None? <==> forall i :: 0 <= i < |rows| ==> !(rows[i].scope == sc && rows[i].createdAt == t)
    ensures r.Some? ==> exists i :: 0 <= i < |rows| && rows[i] == r.value
                                    && (forall j :: 0 <= j < i ==> !(rows[j].scope == sc && rows[j].createdAt == t))
    ensures r.Some? ==> r.value.scope == sc && r.value.createdAt == t
  {
    if |rows| == 0 then None
    else if rows[0].scope == sc && rows[0].createdAt == t then Some(rows[0])
    else
      var r := AtInstant(rows[1..], sc, t);
      if r.Some? then
        var i :| 0 <= i < |rows[1..]| && rows[1..][i] == r.value
                 && (forall j :: 0 <= j < i ==> !(rows[1..][j].scope == sc && rows[1..][j].createdAt == t));
        assert rows[i + 1] == r.value;
        assert forall j :: 1 <= j < i + 1 ==> rows[j] == rows[1..][j - 1];
        r
      else r
  }

  /** `ORDER BY created_at DESC LIMIT 1`: a row of the scope no other row of the scope is
      newer than. */
  function Newest(rows: seq<VersionRow>, sc: Scope): (r: Option<VersionRow>)
    ensures r.None? <==> forall x :: x in rows ==> x.scope != sc
    ensures r.Some? ==> r.value in rows && r.value.scope == sc
    ensures r.Some? ==> forall x :: x in rows && x.scope == sc ==> x.createdAt <= r.value.createdAt
  {
    var sorted := SortDesc(ScopeVersions(rows, sc), ByCreatedAt());
    if |sorted| == 0 then
      assert |ScopeVersions(rows, sc)| == 0;
      None
    else
      assert sorted[0] in multiset(ScopeVersions(rows, sc));
      assert forall x :: x in rows && x.scope == sc ==> x.createdAt <= sorted[0].createdAt by {
        forall x | x in rows && x.scope == sc
          ensures x.createdAt <= sorted[0].createdAt
        {
          assert x in multiset(sorted);
          var k :| 0 <= k < |sorted| && sorted[k] == x;
          if k > 0 {
            assert ByCreatedAt()(sorted[0]) >= ByCreatedAt()(sorted[k]);
          }
        }
      }
      Some(sorted[0])
  }

  function Handle(req: Request, s: State, env: Env): (r: Step)
    ensures r.state == s
    ensures r.resp.Respond?
    ensures !ScopeGiven(req.query) ==> r.resp == Respond(400, Error("Missing building/floor"))
    ensures ScopeGiven(req.query) && env.fault ==> r.resp == Respond(500, Error("Server error"))
    ensures (&& ScopeGiven(req.query) && !env.fault && Given(Param(req.query, "at"))
             && env.castInstant(req.query["at"]).None?)
            ==> r.resp == Respond(500, Error("Server error"))
    ensures r.resp.status == 404 <==> r.resp == Respond(404, Error("Snapshot not found"))
    ensures r.resp.status == 200 ==>
              && ScopeGiven(req.query) && !env.fault
              && r.resp.body.Record?
              && r.resp.body.version in s.spaceVersions
              && r.resp.body.version.scope == ScopeOf(req.query)
    ensures (&& ScopeGiven(req.query) && !env.fault && Given(Param(req.query, "at"))
             && env.castInstant(req.query["at"]).Some?)
            ==> var t := env.castInstant(req.query["at"]).value;
                && (r.resp.status == 404 <==> forall x :: x in s.spaceVersions ==> !(x.scope == ScopeOf(req.query) && x.createdAt == t))
                && (r.resp.status == 200 ==> r.resp.body.version.createdAt == t)
    ensures ScopeGiven(req.query) && !env.fault ==>
              (r.resp.status == 500 <==> Given(Param(req.query, "at")) && env.castInstant(req.query["at"]).None?)
    ensures (&& ScopeGiven(req.query) && !env.fault && Given(Param(req.query, "at"))
             && env.castInstant(req.query["at"]).Some?
             && exists x :: x in s.spaceVersions && x.scope == ScopeOf(req.query)
                            && x.createdAt == env.castInstant(req.query["at"]).value)
            ==> var t := env.castInstant(req.query["at"]).value;
                && r.resp.status == 200 && r.resp.body.Record?
                && exists i :: && 0 <= i < |s.spaceVersions| && s.spaceVersions[i] == r.resp.body.version
                               && forall j :: 0 <= j < i ==>
                                    !(s.spaceVersions[j].scope == ScopeOf(req.query) && s.spaceVersions[j].createdAt == t)
    ensures (&& ScopeGiven(req.query) && !env.fault && !Given(Param(req.query, "at"))
             && exists x :: x in s.spaceVersions && x.scope == ScopeOf(req.query))
            ==> r.resp.status == 200 && r.resp.body.Record?
    ensures (ScopeGiven(req.query) && !env.fault && !Given(Param(req.query, "at"))) ==>
              && (r.resp.status == 404 <==> forall x :: x in s.spaceVersions ==> x.scope != ScopeOf(req.query))
              && (r.resp.status == 200 ==>
                    forall x :: x in s.spaceVersions && x.scope == ScopeOf(req.query) ==>
                      x.createdAt <= r.resp.body.version.createdAt)
  {
    if !ScopeGiven(req.query) then Step(Respond(400, Error("Missing building/floor")), s)
    else if env.fault then Step(Respond(500, Error("Server error")), s)
    else
      var sc := ScopeOf(req.query);
      var found: Outcome<Option<VersionRow>> :=
        if Given(Param(req.query, "at")) then
          match env.castInstant(req.query["at"])
          case None => Throws
          case Some(t) => Returns(AtInstant(s.spaceVersions, sc, t))
        else Returns(Newest(s.spaceVersions, sc));
      match found
      case Throws => Step(Respond(500, Error("Server error")), s)
      case Returns(None) => Step(Respond(404, Error("Snapshot not found")), s)
      case Returns(Some(v)) => Step(Respond(200, Record(v)), s)
  }

  /** A version row read back at its own instant is found, and it is the row returned
      when no other row of the scope shares that instant. */
  lemma ReadBackAtInstant(req: Request, s: State, env: Env, v: VersionRow)
    requires v in s.spaceVersions && ScopeGiven(req.query) && v.scope == ScopeOf(req.query)
    requires Given(Param(req.query, "at")) && env.castInstant(req.query["at"]) == Some(v.createdAt) && !env.fault
    ensures Handle(req, s, env).resp.status == 200
    ensures (forall x :: x in s.spaceVersions && x.scope == v.scope && x.createdAt == v.createdAt ==> x == v)
            ==> Handle(req, s, env).resp == Respond(200, Record(v))
  {
    var r := Handle(req, s, env).resp;
    assert r.body.version in s.spaceVersions;
  }

  /** Without `at`, a scope that has versions answers with one of them, and reading
      that one back at its instant finds a row taken at the same instant. */
  lemma NewestReadBack(req: Request, at: Request, s: State, env: Env)
    requires ScopeGiven(req.query) && !Given(Param(req.query, "at")) && !env.fault
    requires exists x :: x in s.spaceVersions && x.scope == ScopeOf(req.query)
    requires ScopeGiven(at.query) && ScopeOf(at.query) == ScopeOf(req.query) && Given(Param(at.query, "at"))
    requires env.castInstant(at.query["at"]) == Some(Handle(req, s, env).resp.body.version.createdAt)
    ensures Handle(at, s, env).resp.status == 200
    ensures Handle(at, s, env).resp.body.version.createdAt == Handle(req, s, env).resp.body.version.createdAt
  {
    ReadBackAtInstant(at, s, env, Handle(req, s, env).resp.body.version);
  }
}

=== FILE: history_lib.dfy ===
/** The Netlify Blobs history library: two key spaces, `versions` (one JSON document
    per `building|floor`) and `snapshots` (one JSON document per
    `building|floor|created_at`). A key space is a map from key to what `get` returns
    for it once parsed. */
module HistoryLib {
  import opened Js
  import opened Text
  import opened Sorting

  /** What a key holds: an empty (falsy) string, text that is not JSON, or a JSON object. */
  datatype Raw = Blank | Garbage | Stored(doc: Doc)

  type Namespace = map<string, Raw>

  /** `${building}|${floor}`: the two names with a bar between them. */
  function VKey(building: string, floor: string): (k: string)
    ensures |k| == |building| + 1 + |floor|
    ensures HasPrefix(k, building) && k[|building|] == '|' && k[|building| + 1..] == floor
  {
    building + "|" + floor
  }

  /** `${building}|${floor}|`: the version key of the scope followed by one more bar. */
  function ScopePrefix(building: string, floor: string): (p: string)
    ensures HasPrefix(p, VKey(building, floor)) && |p| == |VKey(building, floor)| + 1
    ensures p[|p| - 1] == '|'
  {
    building + "|" + floor + "|"
  }

  /** Every snapshot key of a scope starts with the scope prefix and ends with the timestamp. */
  function SKey(building: string, floor: string, at: string): (k: string)
    ensures HasPrefix(k, ScopePrefix(building, floor))
    ensures k[|ScopePrefix(building, floor)|..] == at
  {
    building + "|" + floor + "|" + at
  }

  const ZeroVersion: Doc := map["version_n" := JNum(0)]

  predicate HasNumericVersion(d: Doc)
  {
    "version_n" in d && d["version_n"].JNum?
  }

  /** `getVersion`: a missing or empty record reads as `{version_n: 0}`, a `version_n` that
      is not a number is replaced by 0, every other field is returned as stored, and a
      record that is not JSON makes the call throw. */
  function GetVersion(versions: Namespace, building: string, floor: string): (r: Outcome<Doc>)
    ensures var k := VKey(building, floor);
            r.Throws? <==> k in versions && versions[k].Garbage?
    ensures r.Returns? ==> HasNumericVersion(r.value)
    ensures var k := VKey(building, floor);
            k !in versions || versions[k].Blank? ==> r == Returns(ZeroVersion)
    ensures var k := VKey(building, floor);
            k in versions && versions[k].Stored? ==>
              && r.Returns?
              && r.value.Keys == versions[k].doc.Keys + {"version_n"}
              && (forall f :: f in r.value && f != "version_n" ==> r.value[f] == versions[k].doc[f])
              && (HasNumericVersion(versions[k].doc) ==> r.value == versions[k].doc)
              && (!HasNumericVersion(versions[k].doc) ==> r.value["version_n"] == JNum(0))
  {
    var k := VKey(building, floor);
    if k !in versions then Returns(ZeroVersion)
    else match versions[k]
      case Blank => Returns(ZeroVersion)
      case Garbage => Throws
      case Stored(v) => Returns(if HasNumericVersion(v) then v else v["version_n" := JNum(0)])
  }

  /** `setVersion`: overwrite the scope's record with `{version_n: n}` and return it. */
  function SetVersion(versions: Namespace, building: string, floor: string, n: int): (r: (Namespace, Doc))
    ensures r.1 == map["version_n" := JNum(n)]
    ensures r.0.Keys == versions.Keys + {VKey(building, floor)}
    ensures r.0[VKey(building, floor)] == Stored(r.1)
    ensures forall k :: k in versions && k != VKey(building, floor) ==> r.0[k] == versions[k]
  {
    var rec := map["version_n" := JNum(n)];
    (versions[VKey(building, floor) := Stored(rec)], rec)
  }

  /** `setVersion` then `getVersion` reads back the number written. */
  lemma SetThenGetVersion(versions: Namespace, building: string, floor: string, n: int)
    ensures GetVersion(SetVersion(versions, building, floor, n).0, building, floor)
            == Returns(map["version_n" := JNum(n)])
  {
  }

  /** `setVersion` leaves the record of every other key as it was. */
  lemma SetVersionLeavesOthers(versions: Namespace, building: string, floor: string, n: int, b: string, f: string)
    requires VKey(b, f) != VKey(building, floor)
    ensures GetVersion(SetVersion(versions, building, floor, n).0, b, f) == GetVersion(versions, b, f)
  {
  }

  /** Keys are made by plain concatenation, so two different scopes can share a key
      when a name contains `|`. */
  lemma ScopeKeysCanCollide()
    ensures VKey("A|1", "2") == VKey("A", "1|2")
    ensures SKey("A|1", "2", "t") == SKey("A", "1|2", "t")
  {
  }

  /** Without `|` in the building name the version key identifies the scope. */
  lemma VKeyInjective(b1: string, f1: string, b2: string, f2: string)
    requires '|' !in b1 && '|' !in b2
    requires VKey(b1, f1) == VKey(b2, f2)
    ensures b1 == b2 && f1 == f2
  {
    SplitAfterPiece(b1, f1, '|');
    SplitAfterPiece(b2, f2, '|');
    assert b1 + "|" + f1 == b1 + ['|'] + f1;
    assert b2 + "|" + f2 == b2 + ['|'] + f2;
    assert Split(f1, '|') == Split(f2, '|');
  }

  /** Without `|` in the building and floor names a snapshot key identifies the scope
      and the timestamp. */
  lemma SKeyInjective(b1: string, f1: string, at1: string, b2: string, f2: string, at2: string)
    requires '|' !in b1 && '|' !in b2 && '|' !in f1 && '|' !in f2
    requires SKey(b1, f1, at1) == SKey(b2, f2, at2)
    ensures b1 == b2 && f1 == f2 && at1 == at2
  {
    assert SKey(b1, f1, at1) == b1 + ['|'] + (f1 + ['|'] + at1);
    assert SKey(b2, f2, at2) == b2 + ['|'] + (f2 + ['|'] + at2);
    SplitAfterPiece(b1, f1 + ['|'] + at1, '|');
    SplitAfterPiece(b2, f2 + ['|'] + at2, '|');
    SplitAfterPiece(f1, at1, '|');
    SplitAfterPiece(f2, at2, '|');
    assert Split(at1, '|') == Split(at2, '|');
  }

  function CreatedAt(rec: Doc): Option<Json>
  {
    Lookup(rec, "created_at")
  }

  /** `${rec.created_at}`, the timestamp part of the record's key. */
  function AtText(rec: Doc): string
  {
    Str(CreatedAt(rec))
  }

  /** `putSnapshot`: store the record under `building|floor|created_at`, replacing whatever
      that key held, and return the key. */
  function PutSnapshot(snapshots: Namespace, building: string, floor: string, rec: Doc): (r: (Namespace, string))
    ensures r.1 == SKey(building, floor, AtText(rec))
    ensures r.0.Keys == snapshots.Keys + {r.1}
    ensures r.0[r.1] == Stored(rec)
    ensures forall k :: k in snapshots && k != r.1 ==> r.0[k] == snapshots[k]
  {
    var key := SKey(building, floor, AtText(rec));
    (snapshots[key := Stored(rec)], key)
  }

  /** `getSnapshot`: the record at the exact key, null when the key is missing or empty;
      a value that is not JSON makes the call throw. */
  function GetSnapshot(snapshots: Namespace, building: string, floor: string, at: string): (r: Outcome<Option<Doc>>)
    ensures var k := SKey(building, floor, at);
            && (r.Throws? <==> k in snapshots && snapshots[k].Garbage?)
            && (r == Returns(None) <==> k !in snapshots || snapshots[k].Blank?)
            && (forall d :: r == Returns(Some(d)) <==> k in snapshots && snapshots[k] == Stored(d))
  {
    var k := SKey(building, floor, at);
    if k !in snapshots then Returns(None)
    else match snapshots[k]
      case Blank => Returns(None)
      case Garbage => Throws
      case Stored(d) => Returns(Some(d))
  }

  /** A record put is read back at its own timestamp. */
  lemma PutThenGetSnapshot(snapshots: Namespace, building: string, floor: string, rec: Doc)
    ensures GetSnapshot(PutSnapshot(snapshots, building, floor, rec).0, building, floor, AtText(rec))
            == Returns(Some(rec))
  {
  }

  /** Two records of one scope with the same timestamp: the later put wins, there is no
      duplicate check. */
  lemma PutOverwrites(snapshots: Namespace, building: string, floor: string, first: Doc, second: Doc)
    requires AtText(first) == AtText(second)
    ensures var s1 := PutSnapshot(snapshots, building, floor, first).0;
            var s2 := PutSnapshot(s1, building, floor, second).0;
            && s2.Keys == s1.Keys
            && GetSnapshot(s2, building, floor, AtText(first)) == Returns(Some(second))
  {
  }

  /** The parsed records of the listed keys that start with `prefix`, in listing order;
      keys that are gone, empty or not JSON are skipped. */
  function Matched(listing: seq<string>, snapshots: Namespace, prefix: string): (r: seq<Doc>)
    ensures forall d :: d in r <==>
              exists i :: 0 <= i < |listing| && HasPrefix(listing[i], prefix)
                          && listing[i] in snapshots && snapshots[listing[i]] == Stored(d)
  {
    if |listing| == 0 then []
    else
      var k := listing[0];
      var tail := Matched(listing[1..], snapshots, prefix);
      assert forall d :: d in tail <==>
               exists i :: 1 <= i < |listing| && HasPrefix(listing[i], prefix)
                           && listing[i] in snapshots && snapshots[listing[i]] == Stored(d)
      by {
        forall d ensures d in tail ==>
               exists i :: 1 <= i < |listing| && HasPrefix(listing[i], prefix)
                           && listing[i] in snapshots && snapshots[listing[i]] == Stored(d)
        {
          if d in tail {
            var j :| 0 <= j < |listing[1..]| && HasPrefix(listing[1..][j], prefix)
                     && listing[1..][j] in snapshots && snapshots[listing[1..][j]] == Stored(d);
            assert listing[j + 1] == listing[1..][j];
          }
        }
        forall d, i | 1 <= i < |listing| && HasPrefix(listing[i], prefix)
                     && listing[i] in snapshots && snapshots[listing[i]] == Stored(d)
          ensures d in tail
        {
          assert listing[1..][i - 1] == listing[i];
        }
      }
      if HasPrefix(k, prefix) && k in snapshots && snapshots[k].Stored? then [snapshots[k].doc] + tail
      else tail
  }

  /** The sort key of a record: `new Date(rec.created_at)`, supplied by `dateOf`. */
  function NewestFirst(dateOf: Option<Json> -> int): Doc -> int
  {
    d => dateOf(CreatedAt(d))
  }

  /** `listSnapshots`: the records under the scope prefix, newest first. `listing` is the
      order in which the store lists its keys. */
  function ListSnapshots(snapshots: Namespace, listing: seq<string>, building: string, floor: string,
                         dateOf: Option<Json> -> int): (r: seq<Doc>)
    ensures forall i, j :: 0 <= i < j < |r| ==> dateOf(CreatedAt(r[i])) >= dateOf(CreatedAt(r[j]))
    ensures multiset(r) == multiset(Matched(listing, snapshots, ScopePrefix(building, floor)))
  {
    var r := SortDesc(Matched(listing, snapshots, ScopePrefix(building, floor)), NewestFirst(dateOf));
    assert forall i, j :: 0 <= i < j < |r| ==> NewestFirst(dateOf)(r[i]) >= NewestFirst(dateOf)(r[j]);
    r
  }

  /** The store lists each of its keys. */
  ghost predicate Enumerates(listing: seq<string>, snapshots: Namespace)
  {
    forall k :: k in listing <==> k in snapshots
  }

  /** With a complete listing, `listSnapshots` holds exactly the records stored under the
      scope prefix. */
  lemma ListSnapshotsExactly(snapshots: Namespace, listing: seq<string>, building: string, floor: string,
                             dateOf: Option<Json> -> int, d: Doc)
    requires Enumerates(listing, snapshots)
    ensures d in ListSnapshots(snapshots, listing, building, floor, dateOf) <==>
            exists k :: k in snapshots && HasPrefix(k, ScopePrefix(building, floor)) && snapshots[k] == Stored(d)
  {
    var prefix := ScopePrefix(building, floor);
    var m := Matched(listing, snapshots, prefix);
    var r := ListSnapshots(snapshots, listing, building, floor, dateOf);
    assert d in r <==> d in m by {
      assert d in r <==> d in multiset(r);
      assert d in m <==> d in multiset(m);
    }
    if exists k :: k in snapshots && HasPrefix(k, prefix) && snapshots[k] == Stored(d) {
      var k :| k in snapshots && HasPrefix(k, prefix) && snapshots[k] == Stored(d);
      var i :| 0 <= i < |listing| && listing[i] == k;
      assert d in m;
    }
  }

  /** A record put is listed among its scope's snapshots. */
  lemma PutThenListed(snapshots: Namespace, listing: seq<string>, building: string, floor: string,
                      rec: Doc, dateOf: Option<Json> -> int)
    requires Enumerates(listing, PutSnapshot(snapshots, building, floor, rec).0)
    ensures rec in ListSnapshots(PutSnapshot(snapshots, building, floor, rec).0, listing, building, floor, dateOf)
  {
    var (s1, key) := PutSnapshot(snapshots, building, floor, rec);
    ListSnapshotsExactly(s1, listing, building, floor, dateOf, rec);
    assert key in s1 && HasPrefix(key, ScopePrefix(building, floor)) && s1[key] == Stored(rec);
  }

  /** `getLatestSnapshot`: the head of the newest-first list, or null. */
  function GetLatestSnapshot(snapshots: Namespace, listing: seq<string>, building: string, floor: string,
                             dateOf: Option<Json> -> int): (r: Option<Doc>)
    ensures var all := ListSnapshots(snapshots, listing, building, floor, dateOf);
            && (r.None? <==> |all| == 0)
            && (r.Some? ==> r.value in all && forall d :: d in all ==> dateOf(CreatedAt(d)) <= dateOf(CreatedAt(r.value)))
  {
    var all := ListSnapshots(snapshots, listing, building, floor, dateOf);
    if |all| == 0 then None else Some(all[0])
  }
}

=== FILE: history_list.dfy ===
/** `history-list` (netlify/functions/history-list.mjs): the Blobs snapshots of a scope,
    newest first, cut down to their metadata. Read-only. */
module HistoryList {
  import opened Js
  import opened Text
  import opened HistoryLib
  import opened Model

  /** The light entry of one record: `note` defaults to "" and `size` to 0 when falsy. */
  function Summarize(d: Doc): (r: Summary)
    ensures r.building == Lookup(d, "building") && r.floor == Lookup(d, "floor")
    ensures r.createdAt == CreatedAt(d) && r.createdBy == Lookup(d, "created_by")
    ensures r.versionN == Lookup(d, "version_n")
    ensures Truthy(Lookup(d, "note")) ==> r.note == d["note"]
    ensures !Truthy(Lookup(d, "note")) ==> r.note == JStr("")
    ensures Truthy(Lookup(d, "size")) ==> r.size == d["size"]
    ensures !Truthy(Lookup(d, "size")) ==> r.size == JNum(0)
  {
    Summary(Lookup(d, "building"), Lookup(d, "floor"), CreatedAt(d), Lookup(d, "created_by"),
            Or(Lookup(d, "note"), JStr("")), Or(Lookup(d, "size"), JNum(0)), Lookup(d, "version_n"))
  }

  function Handle(req: Request, s: State, env: Env): (r: Step)
    ensures r.state == s
    ensures r.resp.Respond?
    ensures !ScopeGiven(req.query) ==> r.resp == Respond(400, Error("missing building/floor"))
    ensures ScopeGiven(req.query) && env.fault ==> r.resp == Respond(500, Failure)
    ensures ScopeGiven(req.query) && !env.fault ==>
              var docs := ListSnapshots(s.snapshots, env.listing, req.query["building"], req.query["floor"], env.dateOf);
              && r.resp.status == 200 && r.resp.body.Summaries?
              && |r.resp.body.list| == |docs|
              && (forall i :: 0 <= i < |docs| ==> r.resp.body.list[i] == Summarize(docs[i]))
    ensures r.resp.status == 200 ==>
              var list := r.resp.body.list;
              forall i, j :: 0 <= i < j < |list| ==> env.dateOf(list[i].createdAt) >= env.dateOf(list[j].createdAt)
  {
    if !ScopeGiven(req.query) then Step(Respond(400, Error("missing building/floor")), s)
    else if env.fault then Step(Respond(500, Failure), s)
    else
      var docs := ListSnapshots(s.snapshots, env.listing, req.query["building"], req.query["floor"], env.dateOf);
      var list := seq(|docs|, i requires 0 <= i < |docs| => Summarize(docs[i]));
      Step(Respond(200, Summaries(list)), s)
  }

  /** With a complete listing, every record stored under the scope's prefix is
      summarized. */
  lemma ListsStoredRecords(req: Request, s: State, env: Env, d: Doc)
    requires ScopeGiven(req.query) && !env.fault && Enumerates(env.listing, s.snapshots)
    requires exists k :: k in s.snapshots && HasPrefix(k, ScopePrefix(req.query["building"], req.query["floor"]))
                         && s.snapshots[k] == Stored(d)
    ensures Summarize(d) in Handle(req, s, env).resp.body.list
  {
    var b, f := req.query["building"], req.query["floor"];
    ListSnapshotsExactly(s.snapshots, env.listing, b, f, env.dateOf, d);
    var docs := ListSnapshots(s.snapshots, env.listing, b, f, env.dateOf);
    var i :| 0 <= i < |docs| && docs[i] == d;
    assert Handle(req, s, env).resp.body.list[i] == Summarize(d);
  }
}

=== FILE: history_restore.dfy ===
/** `history-restore` (netlify/functions/history-restore.js): put back the live `spaces`
    of a scope from the `history_snapshots` row taken at an exact instant. The delete and
    the inserts run between BEGIN and COMMIT and are modelled as one atomic step. The
    restore writes no snapshot and touches no version counter. */
module HistoryRestore {
  import opened Js
  import opened Model

  /** The first row of the scope taken at exactly `at` (`LIMIT 1` without an order). */
  function FindSnapshot(rows: seq<HistoryRow>, sc: Scope, at: int): (r: Option<HistoryRow>)
    ensures r.None? <==> forall i :: 0 <= i < |rows| ==> !(rows[i].scope == sc && rows[i].at == at)
    ensures r.Some? ==> exists i :: 0 <= i < |rows| && rows[i] == r.value
                                    && (forall j :: 0 <= j < i ==> !(rows[j].scope == sc && rows[j].at == at))
    ensures r.Some? ==> r.value.scope == sc && r.value.at == at
  {
    if |rows| == 0 then None
    else if rows[0].scope == sc && rows[0].at == at then Some(rows[0])
    else
      var r := FindSnapshot(rows[1..], sc, at);
      if r.Some? then
        var i :| 0 <= i < |rows[1..]| && rows[1..][i] == r.value
                 && (forall j :: 0 <= j < i ==> !(rows[1..][j].scope == sc && rows[1..][j].at == at));
        assert rows[i + 1] == r.value;
        assert forall j :: 1 <= j < i + 1 ==> rows[j] == rows[1..][j - 1];
        r
      else r
  }

  /** `snap.rows[0].features || []` as the `for ... of` loop walks it: a falsy value
      restores nothing, an array restores its elements, a string restores one
      one-character string per character, and anything else cannot be iterated
      (`None`). */
  function RestoredFeatures(features: Option<Json>): (r: Option<seq<Json>>)
    ensures !Truthy(features) ==> r == Some([])
    ensures features.Some? && features.value.JArr? ==> r == Some(features.value.items)
    ensures Truthy(features) && features.value.JStr? ==>
              && r.Some? && |r.value| == |features.value.s|
              && forall i :: 0 <= i < |r.value| ==> r.value[i] == JStr([features.value.s[i]])
    ensures Truthy(features) && !features.value.JArr? && !features.value.JStr? ==> r.None?
  {
    match Or(features, JArr([]))
    case JArr(xs) => Some(xs)
    case JStr(t) => Some(seq(|t|, i requires 0 <= i < |t| => JStr([t[i]])))
    case _ => None
  }

  /** `building`, `floor` and `at` are all present and non-empty. */
  predicate ParamsGiven(query: map<string, string>)
  {
    ScopeGiven(query) && Given(Param(query, "at"))
  }

  /** Everything a successful restore needs: a POST, the three parameters, an `at` that
      casts to an instant, a working database, a snapshot at that instant, and features
      that can be iterated. */
  predicate Restorable(req: Request, s: State, env: Env)
  {
    && req.httpMethod == "POST"
    && ParamsGiven(req.query)
    && env.castInstant(req.query["at"]).Some?
    && !env.fault
    && FindSnapshot(s.history, ScopeOf(req.query), env.castInstant(req.query["at"]).value).Some?
    && RestoredFeatures(FindSnapshot(s.history, ScopeOf(req.query), env.castInstant(req.query["at"]).value).value.features).Some?
  }

  /** The features a restorable request puts back. */
  function Source(req: Request, s: State, env: Env): seq<Json>
    requires Restorable(req, s, env)
  {
    var at := env.castInstant(req.query["at"]).value;
    RestoredFeatures(FindSnapshot(s.history, ScopeOf(req.query), at).value.features).value
  }

  function Handle(req: Request, s: State, env: Env): (r: Step)
    ensures r.resp.Respond?
    ensures req.httpMethod != "POST" ==> r == Step(Respond(405, Error("POST only")), s)
    ensures req.httpMethod == "POST" && !ParamsGiven(req.query) ==>
              r == Step(Respond(400, Error("building, floor & at requis")), s)
    ensures (&& req.httpMethod == "POST" && ParamsGiven(req.query)
             && env.castInstant(req.query["at"]).Some? && !env.fault
             && FindSnapshot(s.history, ScopeOf(req.query), env.castInstant(req.query["at"]).value).None?)
            ==> r == Step(Respond(404, Error("snapshot introuvable")), s)
    ensures (&& req.httpMethod == "POST" && ParamsGiven(req.query)
             && (env.castInstant(req.query["at"]).None? || env.fault))
            ==> r == Step(Respond(500, Error("history restore failed")), s)
    ensures (&& req.httpMethod == "POST" && ParamsGiven(req.query)
             && env.castInstant(req.query["at"]).Some? && !env.fault
             && var found := FindSnapshot(s.history, ScopeOf(req.query), env.castInstant(req.query["at"]).value);
                found.Some? && RestoredFeatures(found.value.features).None?)
            ==> r == Step(Respond(500, Error("history restore failed")), s)
    ensures !Restorable(req, s, env) ==> r.state == s && r.resp.status != 200
    ensures Restorable(req, s, env) ==>
              var sc := ScopeOf(req.query);
              var xs := Source(req, s, env);
              && r.resp == Respond(200, Written(|xs|))
              && ScopeRows(r.state.spaces, sc) == NewRows(sc, xs, s.nextId, env.now, false, false)
              && Geoms(ScopeRows(r.state.spaces, sc)) == xs
              && OtherRows(r.state.spaces, sc) == OtherRows(s.spaces, sc)
    ensures OnlySpacesChanged(s, r.state)
  {
    if req.httpMethod != "POST" then Step(Respond(405, Error("POST only")), s)
    else if !ParamsGiven(req.query) then Step(Respond(400, Error("building, floor & at requis")), s)
    else
      var failed := Step(Respond(500, Error("history restore failed")), s);
      match env.castInstant(req.query["at"])
      case None => failed
      case Some(at) =>
        if env.fault then failed
        else
          var sc := ScopeOf(req.query);
          match FindSnapshot(s.history, sc, at)
          case None => Step(Respond(404, Error("snapshot introuvable")), s)
          case Some(row) =>
            match RestoredFeatures(row.features)
            case None => failed
            case Some(xs) =>
              var added := NewRows(sc, xs, s.nextId, env.now, false, false);
              ReplaceScopeRows(s, sc, added);
              Step(Respond(200, Written(|xs|)), ReplaceScope(s, sc, added))
  }

  /** A restore keeps the ids of `spaces` increasing and below the serial. */
  lemma HandlePreservesWellFormed(req: Request, s: State, env: Env)
    requires WellFormed(s)
    ensures WellFormed(Handle(req, s, env).state)
  {
    if Restorable(req, s, env) {
      ReplaceKeepsWellFormed(s, ScopeOf(req.query), Source(req, s, env), env.now, false, false);
    }
  }
}

=== FILE: history_save.dfy ===
/** `history-save` (netlify/functions/history-save.js): append one `history_snapshots`
    row holding the `geom` of every live row of the scope, ordered by id. The row's `at`
    is the database clock. */
module HistorySave {
  import opened Js
  import opened Sorting
  import opened Model

  /** `note = ''`: the default applies only when the parameter is absent. */
  function NoteOf(query: map<string, string>): (r: string)
    ensures "note" in query ==> r == query["note"]
    ensures "note" !in query ==> r == ""
  {
    Param(query, "note").GetOr("")
  }

  /** The features a save captures: `select geom from spaces where ... order by id`. */
  function Captured(s: State, sc: Scope): (r: seq<Json>)
    ensures |r| == |ScopeRows(s.spaces, sc)|
    ensures multiset(r) == multiset(Geoms(ScopeRows(s.spaces, sc)))
    ensures exists rows: seq<SpaceRow> :: && multiset(rows) == multiset(ScopeRows(s.spaces, sc))
                           && (forall i, j :: 0 <= i < j < |rows| ==> rows[i].id <= rows[j].id)
                           && Geoms(rows) == r
  {
    var rows := ScopeRows(s.spaces, sc);
    var ordered := OrderById(rows);
    GeomsPermutation(ordered, rows);
    Geoms(ordered)
  }

  lemma GeomsAppend(a: seq<SpaceRow>, b: seq<SpaceRow>)
    ensures Geoms(a + b) == Geoms(a) + Geoms(b)
  {
  }

  lemma GeomsRemoveAt(b: seq<SpaceRow>, k: int)
    requires 0 <= k < |b|
    ensures multiset(b[..k] + b[k + 1..]) == multiset(b) - multiset{b[k]}
    ensures multiset(Geoms(b)) == multiset(Geoms(b[..k] + b[k + 1..])) + multiset{b[k].geom}
  {
    var front, back := b[..k], b[k + 1..];
    assert b == front + [b[k]] + back;
    GeomsAppend(front + [b[k]], back);
    GeomsAppend(front, [b[k]]);
    GeomsAppend(front, back);
    var gf, gb := Geoms(front), Geoms(back);
    assert Geoms([b[k]]) == [b[k].geom];
    assert Geoms(b) == gf + [b[k].geom] + gb;
    assert Geoms(front + back) == gf + gb;
  }

  /** Permuting rows permutes their geometries. */
  lemma {:induction false} GeomsPermutation(a: seq<SpaceRow>, b: seq<SpaceRow>)
    requires multiset(a) == multiset(b)
    ensures multiset(Geoms(a)) == multiset(Geoms(b))
    decreases |a|
  {
    if |a| > 0 {
      assert a[0] in multiset(b);
      var k :| 0 <= k < |b| && b[k] == a[0];
      GeomsRemoveAt(b, k);
      GeomsRemoveAt(a, 0);
      assert a[..0] + a[1..] == a[1..];
      GeomsPermutation(a[1..], b[..k] + b[k + 1..]);
    }
  }

  function Handle(req: Request, s: State, env: Env): (r: Step)
    ensures r.resp.Respond?
    ensures req.httpMethod != "POST" ==> r == Step(Respond(405, Error("POST only")), s)
    ensures req.httpMethod == "POST" && !ScopeGiven(req.query) ==>
              r == Step(Respond(400, Error("building & floor requis")), s)
    ensures req.httpMethod == "POST" && ScopeGiven(req.query) && env.fault ==>
              r == Step(Respond(500, Error("history save failed")), s)
    ensures req.httpMethod == "POST" && ScopeGiven(req.query) && !env.fault ==>
              var sc := ScopeOf(req.query);
              var n := |s.history|;
              && r.resp == Respond(200, Written(|ScopeRows(s.spaces, sc)|))
              && |r.state.history| == n + 1
              && r.state.history[..n] == s.history
              && r.state.history[n].scope == sc
              && r.state.history[n].at == env.now
              && r.state.history[n].note == NoteOf(req.query)
              && r.state.history[n].features == Some(JArr(Captured(s, sc)))
    ensures r.state == s.(history := r.state.history)
  {
    if req.httpMethod != "POST" then Step(Respond(405, Error("POST only")), s)
    else if !ScopeGiven(req.query) then Step(Respond(400, Error("building & floor requis")), s)
    else if env.fault then Step(Respond(500, Error("history save failed")), s)
    else
      var sc := ScopeOf(req.query);
      var features := Captured(s, sc);
      var row := HistoryRow(sc, env.now, NoteOf(req.query), Some(JArr(features)));
      assert (s.history + [row])[..|s.history|] == s.history;
      Step(Respond(200, Written(|features|)), s.(history := s.history + [row]))
  }

  /** In a well-formed table the scope's rows are already in id order, so a save captures
      their geometries in table order. */
  lemma CapturedInTableOrder(s: State, sc: Scope)
    requires WellFormed(s)
    ensures Captured(s, sc) == Geoms(ScopeRows(s.spaces, sc))
  {
    var rows := ScopeRows(s.spaces, sc);
    ScopeRowsIncreasing(s.spaces, sc, s.nextId);
    assert SortedDesc(rows, ByIdAscending()) by {
      forall i, j | 0 <= i < j < |rows|
        ensures ByIdAscending()(rows[i]) >= ByIdAscending()(rows[j])
      {
        assert rows[i].id < rows[j].id;
      }
    }
    SortDescOfSorted(rows, ByIdAscending());
  }
}

=== FILE: history_sql.dfy ===
/** `history` over SQL (netlify/functions/history.js): the 50 newest `history_snapshots`
    entries of a scope with their feature counts. Read-only. */
module HistorySql {
  import opened Js
  import opened Sorting
  import opened Model

  /** At most this many entries are listed (`limit 50`). */
  const Limit := 50

  /** The `history_snapshots` rows of one scope, in table order. */
  function ScopeHistory(rows: seq<HistoryRow>, sc: Scope): (r: seq<HistoryRow>)
    ensures forall x :: x in r <==> x in rows && x.scope == sc
    ensures |r| <= |rows|
  {
    if |rows| == 0 then []
    else if rows[0].scope == sc then [rows[0]] + ScopeHistory(rows[1..], sc)
    else ScopeHistory(rows[1..], sc)
  }

  function ByAt(): HistoryRow -> int
  {
    (h: HistoryRow) => h.at
  }

  /** `jsonb_array_length(features)`: NULL for SQL NULL, the length of an array, and an
      error for any other JSON value. */
  function ArrayLength(features: Option<Json>): (r: Outcome<Option<nat>>)
    ensures features.None? ==> r == Returns(None)
    ensures features.Some? && features.value.JArr? ==> r == Returns(Some(|features.value.items|))
    ensures r.Throws? <==> features.Some? && !features.value.JArr?
  {
    match features
    case None => Returns(None)
    case Some(JArr(xs)) => Returns(Some(|xs|))
    case Some(_) => Throws
  }

  /** The rows the query returns: the scope's rows, newest first, cut at the limit. */
  function Selected(rows: seq<HistoryRow>, sc: Scope): (r: seq<HistoryRow>)
    ensures |r| == if |ScopeHistory(rows, sc)| < Limit then |ScopeHistory(rows, sc)| else Limit
    ensures SortedDesc(r, ByAt())
    ensures multiset(r) <= multiset(ScopeHistory(rows, sc))
    ensures forall x :: x in r ==> x in rows && x.scope == sc
    ensures |r| > 0 ==> forall x :: x in multiset(ScopeHistory(rows, sc)) - multiset(r) ==> x.at <= r[|r| - 1].at
  {
    var r := Top(ScopeHistory(rows, sc), ByAt(), Limit);
    assert forall x :: x in multiset(ScopeHistory(rows, sc)) - multiset(r) ==> ByAt()(x) <= ByAt()(r[|r| - 1]);
    InScope(rows, sc, r);
    r
  }

  lemma InScope(rows: seq<HistoryRow>, sc: Scope, r: seq<HistoryRow>)
    requires multiset(r) <= multiset(ScopeHistory(rows, sc))
    ensures forall x :: x in r ==> x in rows && x.scope == sc
  {
    forall x | x in r
      ensures x in ScopeHistory(rows, sc)
    {
      assert x in multiset(r);
    }
  }

  /** Entries for `rows`, or `Throws` when one of them has no array length. */
  function EntriesOf(rows: seq<HistoryRow>): (r: Outcome<seq<HistoryEntry>>)
    ensures r.Throws? <==> exists i :: 0 <= i < |rows| && ArrayLength(rows[i].features).Throws?
    ensures r.Returns? ==> |r.value| == |rows|
    ensures r.Returns? ==> forall i :: 0 <= i < |rows| ==>
              r.value[i] == HistoryEntry(rows[i].at, rows[i].note, ArrayLength(rows[i].features).value)
  {
    if |rows| == 0 then Returns([])
    else
      match (ArrayLength(rows[0].features), EntriesOf(rows[1..]))
      case (Returns(c), Returns(tail)) =>
        var r := [HistoryEntry(rows[0].at, rows[0].note, c)] + tail;
        assert forall i :: 1 <= i < |rows| ==> rows[i] == rows[1..][i - 1];
        Returns(r)
      case (Throws, _) => Throws
      case (_, Throws) =>
        var i :| 0 <= i < |rows[1..]| && ArrayLength(rows[1..][i].features).Throws?;
        assert rows[i + 1] == rows[1..][i];
        Throws
  }

  function Handle(req: Request, s: State, env: Env): (r: Step)
    ensures r.state == s
    ensures r.resp.Respond?
    ensures !ScopeGiven(req.query) ==> r.resp == Respond(400, Error("building & floor requis"))
    ensures ScopeGiven(req.query) && env.fault ==> r.resp == Respond(500, Error("history list failed"))
    ensures ScopeGiven(req.query) && !env.fault ==>
              var listed := Selected(s.history, ScopeOf(req.query));
              && (r.resp.status == 500 <==> exists i :: 0 <= i < |listed| && ArrayLength(listed[i].features).Throws?)
              && (r.resp.status == 500 ==> r.resp == Respond(500, Error("history list failed")))
              && (r.resp.status != 500 ==>
                    && r.resp.status == 200 && r.resp.body.Entries?
                    && |r.resp.body.entries| == |listed|
                    && |r.resp.body.entries| <= Limit
                    && forall i :: 0 <= i < |listed| ==>
                         && r.resp.body.entries[i].at == listed[i].at
                         && r.resp.body.entries[i].note == listed[i].note
                         && r.resp.body.entries[i].count == ArrayLength(listed[i].features).value)
  {
    if !ScopeGiven(req.query) then Step(Respond(400, Error("building & floor requis")), s)
    else if env.fault then Step(Respond(500, Error("history list failed")), s)
    else
      match EntriesOf(Selected(s.history, ScopeOf(req.query)))
      case Throws => Step(Respond(500, Error("history list failed")), s)
      case Returns(es) => Step(Respond(200, Entries(es)), s)
  }

  /** The entries of a successful listing are newest first and come from the scope. */
  lemma ListedNewestFirst(req: Request, s: State, env: Env)
    requires Handle(req, s, env).resp.status == 200
    ensures ScopeGiven(req.query)
    ensures var es := Handle(req, s, env).resp.body.entries;
            && (forall i, j :: 0 <= i < j < |es| ==> es[i].at >= es[j].at)
            && (forall i :: 0 <= i < |es| ==> TakenAt(s.history, ScopeOf(req.query), es[i].at))
  {
    var listed := Selected(s.history, ScopeOf(req.query));
    EntriesFollowRows(listed, Handle(req, s, env).resp.body.entries, ScopeOf(req.query), s.history);
  }

  /** Some row of the scope was taken at `at`. */
  predicate TakenAt(rows: seq<HistoryRow>, sc: Scope, at: int)
  {
    exists x :: x in rows && x.scope == sc && x.at == at
  }

  lemma EntriesFollowRows(listed: seq<HistoryRow>, es: seq<HistoryEntry>, sc: Scope, rows: seq<HistoryRow>)
    requires SortedDesc(listed, ByAt())
    requires forall x :: x in listed ==> x in rows && x.scope == sc
    requires |es| == |listed| && forall i :: 0 <= i < |es| ==> es[i].at == listed[i].at
    ensures forall i, j :: 0 <= i < j < |es| ==> es[i].at >= es[j].at
    ensures forall i :: 0 <= i < |es| ==> TakenAt(rows, sc, es[i].at)
  {
    forall i, j | 0 <= i < j < |es|
      ensures es[i].at >= es[j].at
    {
      assert ByAt()(listed[i]) >= ByAt()(listed[j]);
    }
    forall i | 0 <= i < |es|
      ensures TakenAt(rows, sc, es[i].at)
    {
      var x := listed[i];
      assert x in listed;
      assert x in rows && x.scope == sc && x.at == es[i].at;
    }
  }
}

=== FILE: js.dfy ===
/** JavaScript values as the handlers see them: `undefined` is `None`, a parsed JSON
    document is a `Json`. Numbers are restricted to integers; the handlers only test
    them for truthiness, type and equality. */
module Js {

  datatype Option<+T> = None | Some(value: T) {
    function GetOr(default: T): T
    {
      match this
      case Some(v) => v
      case None => default
    }
  }

  /** The result of a call that either returns or throws. */
  datatype Outcome<+T> = Returns(value: T) | Throws

  datatype Json =
    | JNull
    | JBool(b: bool)
    | JNum(n: int)
    | JStr(s: string)
    | JArr(items: seq<Json>)
    | JObj(fields: map<string, Json>)

  /** A parsed JSON object. */
  type Doc = map<string, Json>

  const EmptyObject: Json := JObj(map[])

  /** `!!v`: false, 0, "", null and undefined are falsy, every object and array is truthy. */
  predicate Truthy(v: Option<Json>)
    ensures Truthy(v) <==> v !in {None, Some(JNull), Some(JBool(false)), Some(JNum(0)), Some(JStr(""))}
  {
    match v
    case None => false
    case Some(JNull) => false
    case Some(JBool(b)) => b
    case Some(JNum(n)) => n != 0
    case Some(JStr(s)) => s != ""
    case Some(_) => true
  }

  /** A map read that reports a missing key as `None`. */
  function Lookup<K, V>(m: map<K, V>, k: K): (r: Option<V>)
    ensures r.Some? <==> k in m
    ensures r.Some? ==> r.value == m[k]
  {
    if k in m then Some(m[k]) else None
  }

  /** `v?.k` for a property that is never inherited: only objects have it, and
      reading it from anything else (undefined and null included) gives undefined. */
  function Get(v: Option<Json>, k: string): (r: Option<Json>)
    ensures r.Some? <==> v.Some? && v.value.JObj? && k in v.value.fields
    ensures r.Some? ==> r.value == v.value.fields[k]
  {
    match v
    case Some(JObj(m)) => Lookup(m, k)
    case _ => None
  }

  /** `v || d` */
  function Or(v: Option<Json>, d: Json): (r: Json)
    ensures Truthy(v) ==> Some(r) == v
    ensures !Truthy(v) ==> r == d
  {
    if Truthy(v) then v.value else d
  }

  /** `v ?? d` */
  function Nullish(v: Option<Json>, d: Json): (r: Json)
    ensures v.Some? && v.value != JNull ==> r == v.value
    ensures v == None || v == Some(JNull) ==> r == d
  {
    match v
    case None => d
    case Some(JNull) => d
    case Some(x) => x
  }

  /** The decimal digits of `n`, most significant first. */
  function NatToDecimal(n: nat): (r: string)
    ensures |r| >= 1
    decreases n
  {
    var d := "0123456789"[n % 10];
    if n < 10 then [d] else NatToDecimal(n / 10) + [d]
  }

  /** The decimal text of an integer, as `String(n)` prints it. */
  function IntToText(n: int): string
  {
    if n < 0 then "-" + NatToDecimal(-n) else NatToDecimal(n)
  }

  /** `${v}`: how a template literal (and a query parameter) turns a value into text. */
  function Str(v: Option<Json>): (r: string)
    ensures v.None? ==> r == "undefined"
    ensures v == Some(JNull) ==> r == "null"
    ensures v.Some? && v.value.JStr? ==> r == v.value.s
    ensures v.Some? && v.value.JNum? ==> r == IntToText(v.value.n)
    ensures v.Some? && v.value.JObj? ==> r == "[object Object]"
  {
    match v
    case None => "undefined"
    case Some(j) => JsonToString(j)
  }

  /** `String(j)`; arrays join their elements with "," and print null elements as "". */
  function JsonToString(j: Json): string
  {
    match j
    case JNull => "null"
    case JBool(b) => if b then "true" else "false"
    case JNum(n) => IntToText(n)
    case JStr(s) => s
    case JArr(xs) => JoinComma(seq(|xs|, i requires 0 <= i < |xs| => if xs[i] == JNull then "" else JsonToString(xs[i])))
    case JObj(_) => "[object Object]"
  }

  function JoinComma(parts: seq<string>): string
  {
    if |parts| == 0 then ""
    else if |parts| == 1 then parts[0]
    else parts[0] + "," + JoinComma(parts[1..])
  }
}

=== FILE: model.dfy ===
/** The state every handler reads and writes, the requests they receive, the responses
    they give and the environment they run in.

    The relational tables are `spaces`, `history_snapshots`, `space_versions`,
    `floor_state`, `floor_layouts` and `floors`; the Blobs key spaces are `snapshots`
    and `versions`. A table whose rows are read back in insertion order is a sequence, a
    table keyed by `(building, floor)` is a map. */
module Model {
  import opened Js
  import opened Sorting
  import opened HistoryLib

  /** The `(building, floor)` pair every table is partitioned by. */
  datatype Scope = Scope(building: string, floor: string)

  /** A row of `spaces`. `props` is the `options.ep` object the attribute columns (code,
      tenant, label, status, color, area, posts, rent, pax_sit, pax_stand, day_price) are
      derived from; `{}` leaves all of them null. */
  datatype SpaceRow = SpaceRow(id: int, scope: Scope, geom: Json, props: Json, updatedAt: int)

  /** A row of `history_snapshots`; `features` is `None` when the column is SQL NULL. */
  datatype HistoryRow = HistoryRow(scope: Scope, at: int, note: string, features: Option<Json>)

  /** A row of `space_versions`; the columns other than the scope and `created_at`
      (size, created_by, note, data) are carried as they are. */
  datatype VersionRow = VersionRow(scope: Scope, createdAt: int, columns: Doc)

  datatype State = State(
    spaces: seq<SpaceRow>,          // in insertion order; ids come from a serial
    nextId: int,                    // the next value of that serial
    history: seq<HistoryRow>,       // history_snapshots, in insertion order
    spaceVersions: seq<VersionRow>, // space_versions
    floorState: map<Scope, int>,    // floor_state.version_n
    floorLayouts: map<Scope, Json>, // floor_layouts.layout
    floors: map<Scope, Json>,       // floors.layout
    snapshots: Namespace,           // Blobs "snapshots"
    versions: Namespace)            // Blobs "versions"

  /** The raw request body as `JSON.parse` sees it: absent or empty, not JSON, or a value. */
  datatype Body = NoBody | Malformed | Parsed(value: Json)

  /** A function invocation. `query` holds the query-string parameters (also what the
      `rawUrl` search parameters give); header names are lower case. */
  datatype Request = Request(
    httpMethod: string,
    path: Option<string>,
    query: map<string, string>,
    headers: map<string, string>,
    body: Body)

  /** One entry of the `history_snapshots` list: `at`, `note` and the feature count
      (`None` when the features column is NULL). */
  datatype HistoryEntry = HistoryEntry(at: int, note: string, count: Option<nat>)

  /** One entry of the Blobs history list; absent fields are `None`. */
  datatype Summary = Summary(
    building: Option<Json>, floor: Option<Json>, createdAt: Option<Json>,
    createdBy: Option<Json>, note: Json, size: Json, versionN: Option<Json>)

  /** Response bodies, one shape per kind of answer. */
  datatype Payload =
    | NoContent                                  // empty body
    | Error(message: string)                     // plain text or `{error: message}`
    | Items(rows: seq<SpaceRow>)                 // `{items}`
    | Written(count: nat)                        // `{ok: true, count}` / `{ok: true, restored}`
    | Item(row: Option<SpaceRow>)                // `{item}`
    | Done                                       // `{ok: true}`, `{saved: true}` or `ok`
    | Layout(layout: Json)                       // a stored layout
    | EmptyJson                                  // `{}`
    | Version(versionN: int)                     // `{version_n}`
    | VersionDoc(doc: Doc)                       // the Blobs version record
    | Entries(entries: seq<HistoryEntry>)        // the history_snapshots list
    | Record(version: VersionRow)                // a space_versions row
    | Summaries(list: seq<Summary>)              // the Blobs history list
    | Meta(size: Option<Json>, note: Option<Json>, at: Option<Json>)  // `{size, note, at}`
    | Failure                                    // an exception's message, not modelled

  /** `Uncaught` is an exception escaping a handler that has no `try`. */
  datatype Response = Respond(status: int, body: Payload) | Uncaught

  datatype Step = Step(resp: Response, state: State)

  /** What a handler gets from its environment rather than from the request or the stores:
      `adminToken` is ADMIN_TOKEN ("" when unset), `now` is the database clock, `fault`
      says the database or store rejects the handler's statements, `castInstant` is the
      `::timestamptz` cast (`None` when the text is not a timestamp), `dateOf` is
      `new Date(created_at)` and `listing` is the order in which the Blobs snapshot
      store lists its keys. */
  datatype Env = Env(
    adminToken: string,
    now: int,
    fault: bool,
    castInstant: string -> Option<int>,
    dateOf: Option<Json> -> int,
    listing: seq<string>)

  /** A query parameter, `None` when it is absent. */
  function Param(query: map<string, string>, name: string): Option<string>
  {
    Lookup(query, name)
  }

  /** A query parameter that is present and non-empty, as `!x` tests it. */
  predicate Given(p: Option<string>)
  {
    p.Some? && p.value != ""
  }

  /** `building` and `floor` are both present and non-empty. */
  predicate ScopeGiven(query: map<string, string>)
  {
    Given(Param(query, "building")) && Given(Param(query, "floor"))
  }

  function ScopeOf(query: map<string, string>): (sc: Scope)
    requires ScopeGiven(query)
    ensures sc.building == query["building"] && sc.floor == query["floor"]
  {
    Scope(query["building"], query["floor"])
  }

  /** The rows of one scope, in table order. */
  function ScopeRows(rows: seq<SpaceRow>, sc: Scope): (r: seq<SpaceRow>)
    ensures forall x :: x in r <==> x in rows && x.scope == sc
    ensures |r| <= |rows|
  {
    if |rows| == 0 then []
    else if rows[0].scope == sc then [rows[0]] + ScopeRows(rows[1..], sc)
    else ScopeRows(rows[1..], sc)
  }

  /** The rows of every other scope, in table order. */
  function OtherRows(rows: seq<SpaceRow>, sc: Scope): (r: seq<SpaceRow>)
    ensures forall x :: x in r <==> x in rows && x.scope != sc
    ensures |r| <= |rows|
  {
    if |rows| == 0 then []
    else if rows[0].scope != sc then [rows[0]] + OtherRows(rows[1..], sc)
    else OtherRows(rows[1..], sc)
  }

  function Geoms(rows: seq<SpaceRow>): (r: seq<Json>)
    ensures |r| == |rows|
    ensures forall i :: 0 <= i < |rows| ==> r[i] == rows[i].geom
  {
    seq(|rows|, i requires 0 <= i < |rows| => rows[i].geom)
  }

  function ByUpdatedAt(): SpaceRow -> int
  {
    (r: SpaceRow) => r.updatedAt
  }

  /** Ascending id, as a descending key. */
  function ByIdAscending(): SpaceRow -> int
  {
    (r: SpaceRow) => -r.id
  }

  /** `ORDER BY id` */
  function OrderById(rows: seq<SpaceRow>): (r: seq<SpaceRow>)
    ensures multiset(r) == multiset(rows)
    ensures forall i, j :: 0 <= i < j < |r| ==> r[i].id <= r[j].id
  {
    var r := SortDesc(rows, ByIdAscending());
    assert forall i, j :: 0 <= i < j < |r| ==> ByIdAscending()(r[i]) >= ByIdAscending()(r[j]);
    r
  }

  /** Fresh rows for `features` in the scope, numbered from `firstId` on. A batch write
      runs each insert as its own statement, so each row gets a later `now()`
      (`perInsert`, one tick per insert), and derives the attribute columns from each
      feature; a restore runs inside one transaction, so its rows share `now`, and
      leaves the attributes null. */
  function NewRows(sc: Scope, features: seq<Json>, firstId: int, now: int, perInsert: bool, withProps: bool): (r: seq<SpaceRow>)
    ensures |r| == |features|
    ensures Geoms(r) == features
    ensures ScopeRows(r, sc) == r
    ensures IdsIncreasing(r) && IdsBelow(r, firstId + |features|)
    ensures forall i :: 0 <= i < |r| ==> r[i].id == firstId + i && r[i].scope == sc
    ensures forall i :: 0 <= i < |r| ==> r[i].updatedAt == if perInsert then now + i else now
    ensures forall i :: 0 <= i < |r| ==> r[i].props == if withProps then EditProps(r[i].geom) else EmptyObject
  {
    var r := seq(|features|, i requires 0 <= i < |features| =>
      SpaceRow(firstId + i, sc, features[i], if withProps then EditProps(features[i]) else EmptyObject,
              if perInsert then now + i else now));
    assert Geoms(r) == features;
    ScopeRowsAll(r, sc);
    r
  }

  /** `fe?.options?.ep || {}` */
  function EditProps(fe: Json): (r: Json)
    ensures Truthy(Some(r))
    ensures r == EmptyObject || (&& fe.JObj? && "options" in fe.fields && fe.fields["options"].JObj?
                                 && "ep" in fe.fields["options"].fields && r == fe.fields["options"].fields["ep"])
    ensures !(fe.JObj? && "options" in fe.fields && fe.fields["options"].JObj? && "ep" in fe.fields["options"].fields)
            ==> r == EmptyObject
    ensures Truthy(Get(Get(Some(fe), "options"), "ep")) ==> Some(r) == Get(Get(Some(fe), "options"), "ep")
    ensures !Truthy(Get(Get(Some(fe), "options"), "ep")) ==> r == EmptyObject
  {
    Or(Get(Get(Some(fe), "options"), "ep"), EmptyObject)
  }

  /** Delete the scope's rows and insert `added` after the remaining ones. */
  function ReplaceScope(s: State, sc: Scope, added: seq<SpaceRow>): (r: State)
    ensures r.spaces == OtherRows(s.spaces, sc) + added
    ensures r.nextId == s.nextId + |added|
    ensures OnlySpacesChanged(s, r)
  {
    s.(spaces := OtherRows(s.spaces, sc) + added, nextId := s.nextId + |added|)
  }

  /** Every table and key space other than `spaces` is as it was. */
  predicate OnlySpacesChanged(s: State, r: State)
  {
    r.(spaces := s.spaces, nextId := s.nextId) == s
  }

  ghost predicate IdsIncreasing(rows: seq<SpaceRow>)
  {
    forall i, j :: 0 <= i < j < |rows| ==> rows[i].id < rows[j].id
  }

  ghost predicate IdsBelow(rows: seq<SpaceRow>, bound: int)
  {
    forall i :: 0 <= i < |rows| ==> rows[i].id < bound
  }

  /** The ids of `spaces` are increasing in table order and below the serial's next value,
      as a serial column makes them. */
  ghost predicate WellFormed(s: State)
  {
    IdsIncreasing(s.spaces) && IdsBelow(s.spaces, s.nextId)
  }


  lemma {:induction false} ScopeRowsAppend(a: seq<SpaceRow>, b: seq<SpaceRow>, sc: Scope)
    ensures ScopeRows(a + b, sc) == ScopeRows(a, sc) + ScopeRows(b, sc)
  {
    if |a| > 0 {
      assert (a + b)[1..] == a[1..] + b;
      ScopeRowsAppend(a[1..], b, sc);
    } else {
      assert a + b == b;
    }
  }

  lemma {:induction false} OtherRowsAppend(a: seq<SpaceRow>, b: seq<SpaceRow>, sc: Scope)
    ensures OtherRows(a + b, sc) == OtherRows(a, sc) + OtherRows(b, sc)
  {
    if |a| > 0 {
      assert (a + b)[1..] == a[1..] + b;
      OtherRowsAppend(a[1..], b, sc);
    } else {
      assert a + b == b;
    }
  }

  lemma {:induction false} ScopeRowsAll(rows: seq<SpaceRow>, sc: Scope)
    requires forall i :: 0 <= i < |rows| ==> rows[i].scope == sc
    ensures ScopeRows(rows, sc) == rows
  {
    if |rows| > 0 {
      ScopeRowsAll(rows[1..], sc);
    }
  }

  lemma {:induction false} ScopeRowsNone(rows: seq<SpaceRow>, sc: Scope)
    requires forall i :: 0 <= i < |rows| ==> rows[i].scope != sc
    ensures ScopeRows(rows, sc) == []
  {
    if |rows| > 0 {
      ScopeRowsNone(rows[1..], sc);
    }
  }

  lemma {:induction false} OtherRowsAll(rows: seq<SpaceRow>, sc: Scope)
    requires forall i :: 0 <= i < |rows| ==> rows[i].scope != sc
    ensures OtherRows(rows, sc) == rows
  {
    if |rows| > 0 {
      OtherRowsAll(rows[1..], sc);
    }
  }

  lemma {:induction false} OtherRowsNone(rows: seq<SpaceRow>, sc: Scope)
    requires forall i :: 0 <= i < |rows| ==> rows[i].scope == sc
    ensures OtherRows(rows, sc) == []
  {
    if |rows| > 0 {
      OtherRowsNone(rows[1..], sc);
    }
  }

  lemma ConsIncreasing(x: SpaceRow, tail: seq<SpaceRow>, bound: int)
    requires IdsIncreasing(tail) && IdsBelow(tail, bound) && x.id < bound
    requires forall i :: 0 <= i < |tail| ==> x.id < tail[i].id
    ensures IdsIncreasing([x] + tail) && IdsBelow([x] + tail, bound)
  {
    var r := [x] + tail;
    forall i, j | 0 <= i < j < |r|
      ensures r[i].id < r[j].id
    {
      assert r[j] == tail[j - 1];
      if i > 0 {
        assert r[i] == tail[i - 1];
      }
    }
  }

  lemma TailIncreasing(rows: seq<SpaceRow>, bound: int)
    requires |rows| > 0 && IdsIncreasing(rows) && IdsBelow(rows, bound)
    ensures IdsIncreasing(rows[1..]) && IdsBelow(rows[1..], bound)
    ensures forall x :: x in rows[1..] ==> rows[0].id < x.id
  {
    forall x | x in rows[1..]
      ensures rows[0].id < x.id
    {
      var k :| 0 <= k < |rows[1..]| && rows[1..][k] == x;
      assert rows[k + 1] == x;
    }
  }

  /** Keeping only the other scopes' rows keeps the ids increasing and bounded. */
  lemma {:induction false} OtherRowsIncreasing(rows: seq<SpaceRow>, sc: Scope, bound: int)
    requires IdsIncreasing(rows) && IdsBelow(rows, bound)
    ensures IdsIncreasing(OtherRows(rows, sc)) && IdsBelow(OtherRows(rows, sc), bound)
  {
    if |rows| > 0 {
      TailIncreasing(rows, bound);
      OtherRowsIncreasing(rows[1..], sc, bound);
      var tail := OtherRows(rows[1..], sc);
      if rows[0].scope != sc {
        assert forall i :: 0 <= i < |tail| ==> tail[i] in rows[1..];
        ConsIncreasing(rows[0], tail, bound);
      }
    }
  }

  /** The rows of one scope keep the ids increasing and bounded. */
  lemma {:induction false} ScopeRowsIncreasing(rows: seq<SpaceRow>, sc: Scope, bound: int)
    requires IdsIncreasing(rows) && IdsBelow(rows, bound)
    ensures IdsIncreasing(ScopeRows(rows, sc)) && IdsBelow(ScopeRows(rows, sc), bound)
  {
    if |rows| > 0 {
      TailIncreasing(rows, bound);
      ScopeRowsIncreasing(rows[1..], sc, bound);
      var tail := ScopeRows(rows[1..], sc);
      if rows[0].scope == sc {
        assert forall i :: 0 <= i < |tail| ==> tail[i] in rows[1..];
        ConsIncreasing(rows[0], tail, bound);
      }
    }
  }

  /** What a scope replace leaves in the table: the new rows for the scope, the old rows
      of every other scope. */
  lemma ReplaceScopeRows(s: State, sc: Scope, added: seq<SpaceRow>)
    requires forall i :: 0 <= i < |added| ==> added[i].scope == sc
    ensures ScopeRows(ReplaceScope(s, sc, added).spaces, sc) == added
    ensures OtherRows(ReplaceScope(s, sc, added).spaces, sc) == OtherRows(s.spaces, sc)
  {
    var others := OtherRows(s.spaces, sc);
    ScopeRowsAppend(others, added, sc);
    OtherRowsAppend(others, added, sc);
    ScopeRowsNone(others, sc);
    ScopeRowsAll(added, sc);
    OtherRowsAll(others, sc);
    OtherRowsNone(added, sc);
  }

  /** Replacing a scope with freshly numbered rows keeps the table well formed. */
  lemma ReplaceKeepsWellFormed(s: State, sc: Scope, features: seq<Json>, now: int, perInsert: bool, withProps: bool)
    requires WellFormed(s)
    ensures WellFormed(ReplaceScope(s, sc, NewRows(sc, features, s.nextId, now, perInsert, withProps)))
  {
    var added := NewRows(sc, features, s.nextId, now, perInsert, withProps);
    OtherRowsIncreasing(s.spaces, sc, s.nextId);
    AppendIncreasing(OtherRows(s.spaces, sc), added, s.nextId, s.nextId + |added|);
  }

  /** Rows below `mid` followed by rows from `mid` on keep the ids increasing. */
  lemma AppendIncreasing(a: seq<SpaceRow>, b: seq<SpaceRow>, mid: int, bound: int)
    requires IdsIncreasing(a) && IdsBelow(a, mid) && mid <= bound
    requires IdsIncreasing(b) && IdsBelow(b, bound)
    requires forall i :: 0 <= i < |b| ==> mid <= b[i].id
    ensures IdsIncreasing(a + b) && IdsBelow(a + b, bound)
  {
    var all := a + b;
    forall i, j | 0 <= i < j < |all|
      ensures all[i].id < all[j].id
    {
      if j < |a| {
        assert all[i] == a[i] && all[j] == a[j];
      } else if i < |a| {
        assert all[i] == a[i] && all[j] == b[j - |a|];
      } else {
        assert all[i] == b[i - |a|] && all[j] == b[j - |a|];
      }
    }
    forall i | 0 <= i < |all|
      ensures all[i].id < bound
    {
      if i >= |a| {
        assert all[i] == b[i - |a|];
      }
    }
  }
}

=== FILE: routing.dfy ===
/** The path routing at the top of the `api` function: the request path is cut into its
    non-empty `/`-separated segments and everything after the first `api` segment is
    the route (`["spaces", "batch"]`, `["spaces", "17"]`, ...). */
module Routing {
  import opened Js
  import opened Text

  /** `xs.filter(Boolean)` on strings: drop the empty ones. */
  function NonEmpty(xs: seq<string>): (r: seq<string>)
    ensures forall i :: 0 <= i < |r| ==> r[i] != ""
    ensures forall x :: x in r <==> x in xs && x != ""
    ensures |r| <= |xs|
    ensures forall x :: x != "" ==> multiset(r)[x] == multiset(xs)[x]
  {
    if |xs| == 0 then []
    else
      assert xs == [xs[0]] + xs[1..];
      if xs[0] == "" then NonEmpty(xs[1..])
      else [xs[0]] + NonEmpty(xs[1..])
  }

  /** The filter works piece by piece, so it keeps the order of what it keeps. */
  lemma {:induction false} NonEmptyAppend(a: seq<string>, b: seq<string>)
    ensures NonEmpty(a + b) == NonEmpty(a) + NonEmpty(b)
  {
    if |a| == 0 {
      assert a + b == b;
    } else {
      assert (a + b)[1..] == a[1..] + b;
      NonEmptyAppend(a[1..], b);
    }
  }

  /** `(path || "").split("/").filter(Boolean)` */
  function Segments(path: string): (r: seq<string>)
    ensures forall i :: 0 <= i < |r| ==> r[i] != "" && '/' !in r[i]
  {
    var pieces := Split(path, '/');
    var r := NonEmpty(pieces);
    assert forall i :: 0 <= i < |r| ==> r[i] in pieces;
    r
  }

  /** `xs.indexOf(x)`: the first position of `x`, or -1. */
  function IndexOf(xs: seq<string>, x: string): (r: int)
    ensures -1 <= r < |xs|
    ensures r == -1 <==> x !in xs
    ensures r >= 0 ==> xs[r] == x && x !in xs[..r]
  {
    if |xs| == 0 then -1
    else if xs[0] == x then 0
    else
      var j := IndexOf(xs[1..], x);
      if j == -1 then -1
      else
        assert xs[..j + 1] == [xs[0]] + xs[1..][..j];
        j + 1
  }

  /** `seg.slice(seg.indexOf("api") + 1)`: the segments after the first `api`, or all of
      them when there is none (indexOf gives -1 and the slice starts at 0). */
  function Rest(path: Option<string>): (r: seq<string>)
    ensures var seg := Segments(path.GetOr(""));
            && ("api" !in seg ==> r == seg)
            && ("api" in seg ==> exists i :: 0 <= i < |seg| && seg[i] == "api" && "api" !in seg[..i] && r == seg[i + 1..])
  {
    var seg := Segments(path.GetOr(""));
    var i := IndexOf(seg, "api");
    seg[i + 1..]
  }

  /** `"/" + xs.join("/")`: the path a client builds from its segments. */
  function PathOf(xs: seq<string>): string
  {
    "/" + Join(xs, '/')
  }

  ghost predicate ValidSegments(xs: seq<string>)
  {
    forall i :: 0 <= i < |xs| ==> xs[i] != "" && '/' !in xs[i]
  }

  lemma {:induction false} NonEmptyKeepsNonEmpty(xs: seq<string>)
    requires forall i :: 0 <= i < |xs| ==> xs[i] != ""
    ensures NonEmpty(xs) == xs
  {
    if |xs| > 0 {
      NonEmptyKeepsNonEmpty(xs[1..]);
      assert xs == [xs[0]] + xs[1..];
    }
  }

  /** Cutting a path built from valid segments gives those segments back. */
  lemma SegmentsOfPath(xs: seq<string>)
    requires ValidSegments(xs)
    ensures Segments(PathOf(xs)) == xs
  {
    var p := PathOf(xs);
    if |xs| == 0 {
      assert p[1..] == "";
      assert Split(p, '/') == ["", ""];
      assert NonEmpty(["", ""]) == NonEmpty([""]) == NonEmpty([]);
    } else {
      SplitAfterPiece("", Join(xs, '/'), '/');
      assert p == "" + ['/'] + Join(xs, '/');
      SplitJoin(xs, '/');
      assert Split(p, '/') == [""] + xs;
      assert ([""] + xs)[1..] == xs;
      NonEmptyKeepsNonEmpty(xs);
    }
  }

  /** Routing a path `<prefix>/api/<route>` yields the route, whatever the prefix
      (`/.netlify/functions` or nothing) as long as it has no `api` segment of its own. */
  lemma RestOfApiPath(prefix: seq<string>, route: seq<string>)
    requires ValidSegments(prefix) && ValidSegments(route)
    requires "api" !in prefix
    ensures Rest(Some(PathOf(prefix + ["api"] + route))) == route
  {
    var xs := prefix + ["api"] + route;
    assert ValidSegments(xs) by {
      forall i | 0 <= i < |xs|
        ensures xs[i] != "" && '/' !in xs[i]
      {
        if i < |prefix| { assert xs[i] == prefix[i]; }
        else if i > |prefix| { assert xs[i] == route[i - |prefix| - 1]; }
      }
    }
    SegmentsOfPath(xs);
    assert xs[|prefix|] == "api";
    assert xs[..|prefix|] == prefix;
    assert IndexOf(xs, "api") == |prefix|;
    assert xs[|prefix| + 1..] == route;
  }

  /** Without any `api` segment every segment is part of the route. */
  lemma NoApiSegment(xs: seq<string>)
    requires ValidSegments(xs) && "api" !in xs
    ensures Rest(Some(PathOf(xs))) == xs
  {
    SegmentsOfPath(xs);
  }
}

=== FILE: save_floor.dfy ===
/** `save-floor` (netlify/functions/save-floor.js): read and write a scope's layout in
    `floor_layouts`. Writes need an admin token, taken from `x-admin-token` or else from
    a `Bearer` authorization header. There is no `try`: a database error or a body that
    is not JSON escapes the handler. */
module SaveFloor {
  import opened Js
  import opened Text
  import opened Model

  /** `headers['x-admin-token'] || (headers['authorization'] || '').replace(/^Bearer\s+/, '')` */
  function PresentedToken(headers: map<string, string>): (r: string)
    ensures "x-admin-token" in headers && headers["x-admin-token"] != "" ==> r == headers["x-admin-token"]
    ensures ("x-admin-token" !in headers || headers["x-admin-token"] == "") && "authorization" !in headers ==> r == ""
    ensures ("x-admin-token" !in headers || headers["x-admin-token"] == "") && "authorization" in headers ==>
              var h := headers["authorization"];
              && (!BearerAt(h, false) ==> r == h)
              && (BearerAt(h, false) ==>
                    && |r| < |h| - 6 && r == h[|h| - |r|..] && (r == "" || !IsJsSpace(r[0]))
                    && forall i :: 6 <= i < |h| - |r| ==> IsJsSpace(h[i]))
  {
    if "x-admin-token" in headers && headers["x-admin-token"] != "" then headers["x-admin-token"]
    else if "authorization" in headers then StripBearer(headers["authorization"], false)
    else ""
  }

  /** `!token || token !== ADMIN_TOKEN` refuses; an unset ADMIN_TOKEN refuses every token. */
  predicate Authorized(headers: map<string, string>, adminToken: string)
    ensures Authorized(headers, adminToken) <==> adminToken != "" && PresentedToken(headers) == adminToken
  {
    PresentedToken(headers) != "" && PresentedToken(headers) == adminToken
  }

  /** `const { layout = {} } = JSON.parse(event.body || '{}')`: an absent body reads as
      `{}`; a body that is not JSON, or is `null`, throws; the default applies only when
      the property is absent. */
  function PostedLayout(body: Body): (r: Outcome<Json>)
    ensures r.Throws? <==> body.Malformed? || body == Parsed(JNull)
    ensures body.NoBody? ==> r == Returns(EmptyObject)
    ensures body.Parsed? && r.Returns? ==>
              var l := Get(Some(body.value), "layout");
              r.value == if l.Some? then l.value else EmptyObject
  {
    match body
    case NoBody => Returns(EmptyObject)
    case Malformed => Throws
    case Parsed(JNull) => Throws
    case Parsed(v) =>
      match Get(Some(v), "layout")
      case Some(l) => Returns(l)
      case None => Returns(EmptyObject)
  }

  function Handle(req: Request, s: State, env: Env): (r: Step)
    ensures !ScopeGiven(req.query) ==> r == Step(Respond(400, Error("Missing building/floor")), s)
    ensures ScopeGiven(req.query) && req.httpMethod == "GET" ==>
              && r.state == s
              && (env.fault <==> r.resp.Uncaught?)
              && (!env.fault ==> r.resp == Respond(200, Layout(Nullish(Lookup(s.floorLayouts, ScopeOf(req.query)), EmptyObject))))
    ensures ScopeGiven(req.query) && req.httpMethod == "POST" && !Authorized(req.headers, env.adminToken) ==>
              r == Step(Respond(401, Error("Unauthorized")), s)
    ensures ScopeGiven(req.query) && req.httpMethod == "OPTIONS" ==> r == Step(Respond(200, EmptyJson), s)
    ensures ScopeGiven(req.query) && req.httpMethod !in {"GET", "POST", "OPTIONS"} ==>
              r == Step(Respond(405, Error("Method Not Allowed")), s)
    ensures r.state != s ==>
              && ScopeGiven(req.query) && req.httpMethod == "POST"
              && Authorized(req.headers, env.adminToken) && !env.fault
              && PostedLayout(req.body).Returns?
              && r.resp == Respond(200, Done)
    ensures r.resp == Respond(200, Done) ==>
              && ScopeGiven(req.query) && req.httpMethod == "POST" && PostedLayout(req.body).Returns?
              && r.state == s.(floorLayouts := s.floorLayouts[ScopeOf(req.query) := PostedLayout(req.body).value])
  {
    if !ScopeGiven(req.query) then Step(Respond(400, Error("Missing building/floor")), s)
    else
      var sc := ScopeOf(req.query);
      if req.httpMethod == "GET" then
        if env.fault then Step(Uncaught, s)
        else Step(Respond(200, Layout(Nullish(Lookup(s.floorLayouts, sc), EmptyObject))), s)
      else if req.httpMethod == "POST" then
        if !Authorized(req.headers, env.adminToken) then Step(Respond(401, Error("Unauthorized")), s)
        else
          match PostedLayout(req.body)
          case Throws => Step(Uncaught, s)
          case Returns(layout) =>
            if env.fault then Step(Uncaught, s)
            else Step(Respond(200, Done), s.(floorLayouts := s.floorLayouts[sc := layout]))
      else if req.httpMethod == "OPTIONS" then Step(Respond(200, EmptyJson), s)
      else Step(Respond(405, Error("Method Not Allowed")), s)
  }

  /** Without ADMIN_TOKEN no token matches, so nothing can be written. */
  lemma NoWritesWithoutAdminToken(req: Request, s: State, env: Env)
    requires env.adminToken == ""
    ensures Handle(req, s, env).state == s
  {
  }

  /** A non-empty `x-admin-token` header alone decides, whatever `authorization` says. */
  lemma AdminHeaderWins(headers: map<string, string>, adminToken: string)
    requires "x-admin-token" in headers && headers["x-admin-token"] != ""
    ensures Authorized(headers, adminToken) <==> headers["x-admin-token"] == adminToken
  {
  }

  /** Without `x-admin-token`, `Bearer <token>` is accepted; the word must be spelled
      `Bearer` exactly. */
  lemma BearerAccepted(headers: map<string, string>, adminToken: string)
    requires "x-admin-token" !in headers
    requires adminToken != "" && !IsJsSpace(adminToken[0])
    requires "authorization" in headers && headers["authorization"] == "Bearer " + adminToken
    ensures Authorized(headers, adminToken)
  {
    BearerRoundTrip(adminToken, false);
  }

  /** A layout saved for a scope is what the next GET of that scope returns; a saved
      `null` reads back as `{}`. */
  lemma SaveThenLoad(post: Request, get: Request, s: State, env: Env)
    requires post.httpMethod == "POST" && ScopeGiven(post.query)
    requires Authorized(post.headers, env.adminToken) && !env.fault
    requires PostedLayout(post.body).Returns?
    requires get.httpMethod == "GET" && ScopeGiven(get.query) && ScopeOf(get.query) == ScopeOf(post.query)
    ensures var l := PostedLayout(post.body).value;
            Handle(get, Handle(post, s, env).state, env).resp
            == Respond(200, Layout(if l == JNull then EmptyObject else l))
  {
  }
}

=== FILE: scenarios.dfy ===
/** Properties that span several handlers: what one request writes, as the next request
    reads it back. */
module Scenarios {
  import opened Js
  import opened Sorting
  import opened Model
  import Api
  import HistorySave
  import HistoryRestore

  /** Rows that all carry one timestamp are already newest first. */
  lemma SameTimeSorted(rows: seq<SpaceRow>, now: int)
    requires forall i :: 0 <= i < |rows| ==> rows[i].updatedAt == now
    ensures SortDesc(rows, ByUpdatedAt()) == rows
  {
    assert SortedDesc(rows, ByUpdatedAt());
    SortDescOfSorted(rows, ByUpdatedAt());
  }

  /** Freshly numbered rows are already in id order. */
  lemma FreshRowsOrdered(sc: Scope, xs: seq<Json>, firstId: int, now: int, perInsert: bool, withProps: bool)
    ensures SortDesc(NewRows(sc, xs, firstId, now, perInsert, withProps), ByIdAscending())
            == NewRows(sc, xs, firstId, now, perInsert, withProps)
  {
    var rows := NewRows(sc, xs, firstId, now, perInsert, withProps);
    assert SortedDesc(rows, ByIdAscending()) by {
      forall i, j | 0 <= i < j < |rows|
        ensures ByIdAscending()(rows[i]) >= ByIdAscending()(rows[j])
      {
      }
    }
    SortDescOfSorted(rows, ByIdAscending());
  }

  /** After a batch, listing the scope gives the features back newest first, that is in
      reverse of the order they were posted: each insert took a later `now()`. */
  lemma BatchThenList(post: Request, get: Request, s: State, env: Env)
    requires Api.ValidBatch(Api.SafeParse(post.body)) && !env.fault
    requires ScopeGiven(get.query) && ScopeOf(get.query) == Api.BatchScope(Api.SafeParse(post.body))
    ensures var listed := Api.ListSpaces(get, Api.Batch(post, s, env).state, env).resp;
            listed.Respond? && listed.body.Items?
            && Geoms(listed.body.rows) == Reversed(Api.BatchFeatures(Api.SafeParse(post.body)))
  {
    var p := Api.SafeParse(post.body);
    var sc := Api.BatchScope(p);
    var xs := Api.BatchFeatures(p);
    var rows := NewRows(sc, xs, s.nextId, env.now, true, true);
    SortDescOfAscending(rows, ByUpdatedAt());
    assert Geoms(Reversed(rows)) == Reversed(xs);
  }

  /** After a restore, listing the scope gives the restored features in snapshot order:
      the restore's inserts share one transaction and so one `now()`, and the sort keeps
      table order among equal keys. */
  lemma RestoreThenList(restore: Request, get: Request, s: State, env: Env, later: Env)
    requires HistoryRestore.Restorable(restore, s, env) && !later.fault
    requires ScopeGiven(get.query) && ScopeOf(get.query) == ScopeOf(restore.query)
    ensures var listed := Api.ListSpaces(get, HistoryRestore.Handle(restore, s, env).state, later).resp;
            listed.Respond? && listed.body.Items?
            && Geoms(listed.body.rows) == HistoryRestore.Source(restore, s, env)
  {
    var xs := HistoryRestore.Source(restore, s, env);
    SameTimeSorted(NewRows(ScopeOf(restore.query), xs, s.nextId, env.now, false, false), env.now);
  }

  /** A save right after a batch captures exactly the posted features, in order. */
  lemma BatchThenSave(post: Request, save: Request, s: State, env: Env)
    requires Api.ValidBatch(Api.SafeParse(post.body)) && !env.fault
    requires save.httpMethod == "POST" && ScopeGiven(save.query)
    requires ScopeOf(save.query) == Api.BatchScope(Api.SafeParse(post.body))
    ensures var t := Api.Batch(post, s, env).state;
            HistorySave.Captured(t, ScopeOf(save.query)) == Api.BatchFeatures(Api.SafeParse(post.body))
  {
    var p := Api.SafeParse(post.body);
    FreshRowsOrdered(Api.BatchScope(p), Api.BatchFeatures(p), s.nextId, env.now, true, true);
  }

  /** With no earlier match, a row appended at the end is the one found. */
  lemma {:induction false} FindAppended(rows: seq<HistoryRow>, row: HistoryRow, sc: Scope, at: int)
    requires forall i :: 0 <= i < |rows| ==> !(rows[i].scope == sc && rows[i].at == at)
    requires row.scope == sc && row.at == at
    ensures HistoryRestore.FindSnapshot(rows + [row], sc, at) == Some(row)
  {
    if |rows| > 0 {
      assert (rows + [row])[1..] == rows[1..] + [row];
      FindAppended(rows[1..], row, sc, at);
    } else {
      assert rows + [row] == [row];
    }
  }

  /** Save then restore at the saved instant: the scope gets back the geometries it had
      when it was saved, in the same order, with the attribute columns cleared. The
      instant must not already hold a snapshot of the scope. */
  lemma SaveThenRestore(save: Request, restore: Request, s: State, env: Env, later: Env)
    requires WellFormed(s)
    requires save.httpMethod == "POST" && ScopeGiven(save.query) && !env.fault
    requires restore.httpMethod == "POST" && HistoryRestore.ParamsGiven(restore.query)
    requires ScopeOf(restore.query) == ScopeOf(save.query)
    requires later.castInstant(restore.query["at"]) == Some(env.now) && !later.fault
    requires forall i :: 0 <= i < |s.history| ==> !(s.history[i].scope == ScopeOf(save.query) && s.history[i].at == env.now)
    ensures var saved := HistorySave.Handle(save, s, env).state;
            var r := HistoryRestore.Handle(restore, saved, later);
            var sc := ScopeOf(save.query);
            && r.resp == Respond(200, Written(|ScopeRows(s.spaces, sc)|))
            && Geoms(ScopeRows(r.state.spaces, sc)) == Geoms(ScopeRows(s.spaces, sc))
            && (forall x :: x in ScopeRows(r.state.spaces, sc) ==> x.props == EmptyObject)
            && OtherRows(r.state.spaces, sc) == OtherRows(s.spaces, sc)
            && r.state.history == saved.history
  {
    var sc := ScopeOf(save.query);
    var saved := HistorySave.Handle(save, s, env).state;
    var n := |s.history|;
    var row := saved.history[n];
    assert saved.history == s.history + [row];
    FindAppended(s.history, row, sc, env.now);
    HistorySave.CapturedInTableOrder(s, sc);
    assert HistoryRestore.Restorable(restore, saved, later);
  }

  /** Restoring twice from the same snapshot leaves the scope's geometries as the first
      restore left them. */
  lemma RestoreTwice(req: Request, s: State, env: Env)
    requires HistoryRestore.Restorable(req, s, env)
    ensures var once := HistoryRestore.Handle(req, s, env).state;
            var twice := HistoryRestore.Handle(req, once, env).state;
            && Geoms(ScopeRows(twice.spaces, ScopeOf(req.query))) == Geoms(ScopeRows(once.spaces, ScopeOf(req.query)))
            && OtherRows(twice.spaces, ScopeOf(req.query)) == OtherRows(once.spaces, ScopeOf(req.query))
  {
    var once := HistoryRestore.Handle(req, s, env).state;
    assert once.history == s.history;
    assert HistoryRestore.Restorable(req, once, env);
  }
}

=== FILE: sorting.dfy ===
/** The stable descending sort used for `ORDER BY ... DESC` and for
    `Array.prototype.sort` with a "newest first" comparator: an insertion sort in
    which an element goes in front of the first element whose key is not larger,
    so elements with equal keys keep their input order. */
module Sorting {

  ghost predicate SortedDesc<T>(xs: seq<T>, key: T -> int)
  {
    forall i, j :: 0 <= i < j < |xs| ==> key(xs[i]) >= key(xs[j])
  }

  function Insert<T(==)>(x: T, xs: seq<T>, key: T -> int): (r: seq<T>)
    requires SortedDesc(xs, key)
    ensures SortedDesc(r, key)
    ensures multiset(r) == multiset(xs) + multiset{x}
  {
    if |xs| == 0 || key(x) >= key(xs[0]) then
      assert xs == [] || forall i :: 0 <= i < |xs| ==> key(xs[0]) >= key(xs[i]);
      [x] + xs
    else
      var tail := Insert(x, xs[1..], key);
      InsertBehindHead(x, xs, tail, key);
      [xs[0]] + tail
  }

  /** The step of `Insert` that keeps the head in front. */
  lemma InsertBehindHead<T>(x: T, xs: seq<T>, tail: seq<T>, key: T -> int)
    requires |xs| > 0 && key(x) < key(xs[0]) && SortedDesc(xs, key) && SortedDesc(tail, key)
    requires multiset(tail) == multiset(xs[1..]) + multiset{x}
    ensures SortedDesc([xs[0]] + tail, key)
    ensures multiset([xs[0]] + tail) == multiset(xs) + multiset{x}
  {
    forall i | 0 <= i < |tail|
      ensures key(tail[i]) <= key(xs[0])
    {
      assert tail[i] in multiset(tail);
      if tail[i] != x {
        assert tail[i] in multiset(xs[1..]);
        var k :| 0 <= k < |xs[1..]| && xs[1..][k] == tail[i];
        assert xs[k + 1] == tail[i];
      }
    }
    assert xs == [xs[0]] + xs[1..];
    var r := [xs[0]] + tail;
    forall i, j | 0 <= i < j < |r|
      ensures key(r[i]) >= key(r[j])
    {
      assert r[j] == tail[j - 1];
      if i > 0 {
        assert r[i] == tail[i - 1];
      }
    }
  }

  /** Sorts by `key`, largest first, keeping the input order of equal keys. */
  function SortDesc<T(==)>(xs: seq<T>, key: T -> int): (r: seq<T>)
    ensures SortedDesc(r, key)
    ensures multiset(r) == multiset(xs)
    ensures |r| == |xs|
  {
    if |xs| == 0 then []
    else
      assert xs == [xs[0]] + xs[1..];
      Insert(xs[0], SortDesc(xs[1..], key), key)
  }

  /** A sequence already in order is left as it is: the sort is stable. */
  lemma {:induction false} SortDescOfSorted<T>(xs: seq<T>, key: T -> int)
    requires SortedDesc(xs, key)
    ensures SortDesc(xs, key) == xs
  {
    if |xs| > 0 {
      assert SortedDesc(xs[1..], key);
      SortDescOfSorted(xs[1..], key);
      if |xs| > 1 {
        assert key(xs[0]) >= key(xs[1]);
      }
    }
  }

  /** The elements of `xs`, last first. */
  function Reversed<T>(xs: seq<T>): (r: seq<T>)
    ensures |r| == |xs|
    ensures forall i :: 0 <= i < |xs| ==> r[i] == xs[|xs| - 1 - i]
  {
    if |xs| == 0 then [] else Reversed(xs[1..]) + [xs[0]]
  }

  /** An element smaller than everything already sorted goes to the end. */
  lemma {:induction false} InsertSmallest<T>(x: T, xs: seq<T>, key: T -> int)
    requires SortedDesc(xs, key)
    requires forall i :: 0 <= i < |xs| ==> key(x) < key(xs[i])
    ensures Insert(x, xs, key) == xs + [x]
  {
    if |xs| > 0 {
      assert SortedDesc(xs[1..], key);
      InsertSmallest(x, xs[1..], key);
      assert [xs[0]] + (xs[1..] + [x]) == xs + [x];
    }
  }

  /** Keys strictly increasing in input order come out exactly reversed. */
  lemma {:induction false} SortDescOfAscending<T>(xs: seq<T>, key: T -> int)
    requires forall i, j :: 0 <= i < j < |xs| ==> key(xs[i]) < key(xs[j])
    ensures SortDesc(xs, key) == Reversed(xs)
  {
    if |xs| > 0 {
      var tail := xs[1..];
      forall i, j | 0 <= i < j < |tail|
        ensures key(tail[i]) < key(tail[j])
      {
        assert tail[i] == xs[i + 1] && tail[j] == xs[j + 1];
      }
      SortDescOfAscending(tail, key);
      var sorted := SortDesc(tail, key);
      forall i | 0 <= i < |sorted|
        ensures key(xs[0]) < key(sorted[i])
      {
        assert sorted[i] == xs[|xs| - 1 - i];
      }
      InsertSmallest(xs[0], sorted, key);
      assert SortDesc(xs, key) == Insert(xs[0], sorted, key);
    }
  }

  lemma SortedMembers<T>(xs: seq<T>, key: T -> int, x: T)
    ensures x in SortDesc(xs, key) <==> x in xs
  {
    var r := SortDesc(xs, key);
    assert x in r <==> x in multiset(r);
    assert x in xs <==> x in multiset(xs);
  }

  /** The first `k` elements of a sorted sequence hold its `k` largest keys: whatever is
      left out has a key no larger than the last one kept. */
  lemma PrefixHoldsLargest<T>(xs: seq<T>, key: T -> int, k: int)
    requires SortedDesc(xs, key) && 0 <= k <= |xs|
    ensures k > 0 ==> forall x :: x in multiset(xs) - multiset(xs[..k]) ==> key(x) <= key(xs[k - 1])
  {
    if k == 0 {
      return;
    }
    assert xs == xs[..k] + xs[k..];
    assert multiset(xs) - multiset(xs[..k]) == multiset(xs[k..]);
    forall x | x in multiset(xs[k..])
      ensures key(x) <= key(xs[k - 1])
    {
      var j :| 0 <= j < |xs[k..]| && xs[k..][j] == x;
      assert xs[k + j] == x;
    }
  }

  /** The first `n` elements of the sorted sequence: the `n` largest keys, largest first. */
  function Top<T(==)>(xs: seq<T>, key: T -> int, n: nat): (r: seq<T>)
    ensures |r| == if |xs| < n then |xs| else n
    ensures SortedDesc(r, key)
    ensures multiset(r) <= multiset(xs)
    ensures |r| > 0 ==> forall x :: x in multiset(xs) - multiset(r) ==> key(x) <= key(r[|r| - 1])
  {
    var sorted := SortDesc(xs, key);
    var k := if |sorted| < n then |sorted| else n;
    PrefixOfSorted(xs, sorted, key, k);
    PrefixHoldsLargest(sorted, key, k);
    sorted[..k]
  }

  lemma PrefixOfSorted<T>(xs: seq<T>, sorted: seq<T>, key: T -> int, k: int)
    requires multiset(sorted) == multiset(xs) && SortedDesc(sorted, key) && 0 <= k <= |sorted|
    ensures SortedDesc(sorted[..k], key)
    ensures multiset(sorted[..k]) <= multiset(xs)
  {
    var r := sorted[..k];
    assert sorted == r + sorted[k..];
    assert multiset(sorted) == multiset(r) + multiset(sorted[k..]);
  }
}

=== FILE: spaces.dfy ===
/** `spaces` (netlify/functions/spaces.js): read and write a scope's layout in `floors`.
    When ADMIN_TOKEN is set every request but OPTIONS must carry it as a `Bearer`
    authorization header. There is no `try`: a database error or a body that is not
    JSON escapes the handler. */
module Spaces {
  import opened Js
  import opened Text
  import opened Model

  /** `event.headers.authorization?.replace(/^Bearer\s+/, '')` */
  function Credential(headers: map<string, string>): (r: Option<string>)
    ensures r.Some? <==> "authorization" in headers
  {
    if "authorization" in headers then Some(StripBearer(headers["authorization"], false)) else None
  }

  /** The guard lets a request through when no token is configured or the credential
      equals it. */
  predicate Admitted(headers: map<string, string>, adminToken: string)
    ensures Admitted(headers, adminToken) <==>
              || adminToken == ""
              || ("authorization" in headers && StripBearer(headers["authorization"], false) == adminToken)
  {
    adminToken == "" || Credential(headers) == Some(adminToken)
  }

  /** `JSON.parse(event.body || '{}')`, then destructured: a missing body is `{}`, text
      that is not JSON or a `null` body throws. */
  function PostedFields(body: Body): (r: Outcome<Option<Json>>)
    ensures r.Throws? <==> body.Malformed? || body == Parsed(JNull)
    ensures body.NoBody? ==> r == Returns(Some(EmptyObject))
    ensures body.Parsed? && body.value != JNull ==> r == Returns(Some(body.value))
  {
    match body
    case NoBody => Returns(Some(EmptyObject))
    case Malformed => Throws
    case Parsed(JNull) => Throws
    case Parsed(v) => Returns(Some(v))
  }

  /** The scope the SQL statement binds: each value as the driver turns it into text. */
  function PostedScope(v: Option<Json>): (sc: Scope)
    ensures Get(v, "building").Some? && Get(v, "building").value.JStr? ==> sc.building == Get(v, "building").value.s
    ensures Get(v, "floor").Some? && Get(v, "floor").value.JStr? ==> sc.floor == Get(v, "floor").value.s
    ensures Get(v, "building").Some? && Get(v, "building").value.JNum? ==> sc.building == IntToText(Get(v, "building").value.n)
    ensures Get(v, "floor").Some? && Get(v, "floor").value.JNum? ==> sc.floor == IntToText(Get(v, "floor").value.n)
  {
    Scope(Str(Get(v, "building")), Str(Get(v, "floor")))
  }

  /** `rows[0]?.layout || {}` for the GET parameters; an absent parameter is bound as
      NULL and matches no row. */
  function Loaded(floors: map<Scope, Json>, query: map<string, string>): (r: Json)
    ensures ("building" !in query || "floor" !in query) ==> r == EmptyObject
    ensures ("building" in query && "floor" in query && Scope(query["building"], query["floor"]) in floors) ==>
              r == Or(Some(floors[Scope(query["building"], query["floor"])]), EmptyObject)
    ensures ("building" in query && "floor" in query && Scope(query["building"], query["floor"]) !in floors) ==>
              r == EmptyObject
  {
    match (Param(query, "building"), Param(query, "floor"))
    case (Some(b), Some(f)) =>
      if Scope(b, f) in floors then Or(Some(floors[Scope(b, f)]), EmptyObject) else EmptyObject
    case _ => EmptyObject
  }

  function Handle(req: Request, s: State, env: Env): (r: Step)
    ensures req.httpMethod == "OPTIONS" ==> r == Step(Respond(204, NoContent), s)
    ensures req.httpMethod != "OPTIONS" && !Admitted(req.headers, env.adminToken) ==>
              r == Step(Respond(401, Error("Unauthorized")), s)
    ensures (&& req.httpMethod == "POST" && Admitted(req.headers, env.adminToken)
             && PostedFields(req.body).Returns?) ==>
              var v := PostedFields(req.body).value;
              (!Truthy(Get(v, "building")) || !Truthy(Get(v, "floor"))) ==>
                r == Step(Respond(400, Error("Missing building/floor")), s)
    ensures req.httpMethod == "GET" && Admitted(req.headers, env.adminToken) ==>
              && r.state == s
              && (env.fault <==> r.resp.Uncaught?)
              && (!env.fault ==> r.resp == Respond(200, Layout(Loaded(s.floors, req.query))))
    ensures req.httpMethod !in {"OPTIONS", "POST", "GET"} && Admitted(req.headers, env.adminToken) ==>
              r == Step(Respond(405, Error("Method Not Allowed")), s)
    ensures r.state != s ==>
              && req.httpMethod == "POST" && Admitted(req.headers, env.adminToken) && !env.fault
              && PostedFields(req.body).Returns?
              && Truthy(Get(PostedFields(req.body).value, "building"))
              && Truthy(Get(PostedFields(req.body).value, "floor"))
              && r.resp == Respond(200, Done)
    ensures r.resp == Respond(200, Done) ==>
              && req.httpMethod == "POST" && PostedFields(req.body).Returns?
              && var v := PostedFields(req.body).value;
              r.state == s.(floors := s.floors[PostedScope(v) := Nullish(Get(v, "layout"), EmptyObject)])
  {
    if req.httpMethod == "OPTIONS" then Step(Respond(204, NoContent), s)
    else if !Admitted(req.headers, env.adminToken) then Step(Respond(401, Error("Unauthorized")), s)
    else if req.httpMethod == "POST" then
      match PostedFields(req.body)
      case Throws => Step(Uncaught, s)
      case Returns(v) =>
        if !Truthy(Get(v, "building")) || !Truthy(Get(v, "floor")) then
          Step(Respond(400, Error("Missing building/floor")), s)
        else if env.fault then Step(Uncaught, s)
        else Step(Respond(200, Done), s.(floors := s.floors[PostedScope(v) := Nullish(Get(v, "layout"), EmptyObject)]))
    else if req.httpMethod == "GET" then
      if env.fault then Step(Uncaught, s)
      else Step(Respond(200, Layout(Loaded(s.floors, req.query))), s)
    else Step(Respond(405, Error("Method Not Allowed")), s)
  }

  /** Without ADMIN_TOKEN the guard admits every request, with or without a header. */
  lemma OpenWithoutAdminToken(headers: map<string, string>)
    ensures Admitted(headers, "")
  {
  }

  /** With ADMIN_TOKEN set a request without an authorization header is refused. */
  lemma MissingHeaderRefused(req: Request, s: State, env: Env)
    requires env.adminToken != "" && "authorization" !in req.headers && req.httpMethod != "OPTIONS"
    ensures Handle(req, s, env) == Step(Respond(401, Error("Unauthorized")), s)
  {
  }

  /** `Bearer <token>` is admitted. */
  lemma BearerAdmitted(headers: map<string, string>, adminToken: string)
    requires adminToken == "" || !IsJsSpace(adminToken[0])
    requires "authorization" in headers && headers["authorization"] == "Bearer " + adminToken
    ensures Admitted(headers, adminToken)
  {
    BearerRoundTrip(adminToken, false);
  }

  /** A truthy layout posted for a scope named by strings is what a GET with those
      parameters returns. */
  lemma SaveThenLoad(post: Request, get: Request, s: State, env: Env, b: string, f: string, layout: Json)
    requires post.httpMethod == "POST" && Admitted(post.headers, env.adminToken) && !env.fault
    requires b != "" && f != ""
    requires post.body == Parsed(JObj(map["building" := JStr(b), "floor" := JStr(f), "layout" := layout]))
    requires Truthy(Some(layout))
    requires get.httpMethod == "GET" && Admitted(get.headers, env.adminToken)
    requires Param(get.query, "building") == Some(b) && Param(get.query, "floor") == Some(f)
    ensures Handle(get, Handle(post, s, env).state, env).resp == Respond(200, Layout(layout))
  {
    var v := Some(JObj(map["building" := JStr(b), "floor" := JStr(f), "layout" := layout]));
    assert PostedScope(v) == Scope(b, f);
  }
}

=== FILE: text.dfy ===
/** String helpers the handlers rely on: `String.prototype.split` on one character,
    prefix tests, the `^Bearer\s+` header rewrite and Postgres' integer input. */
module Text {
  import opened Js

  predicate HasPrefix(s: string, p: string)
  {
    |p| <= |s| && s[..|p|] == p
  }

  /** `xs.join(sep)` */
  function Join(xs: seq<string>, sep: char): string
  {
    if |xs| == 0 then ""
    else if |xs| == 1 then xs[0]
    else xs[0] + [sep] + Join(xs[1..], sep)
  }

  lemma JoinConsChar(c: char, a: string, t: seq<string>, sep: char)
    ensures Join([[c] + a] + t, sep) == [c] + Join([a] + t, sep)
  {
    if |t| > 0 {
      assert ([[c] + a] + t)[1..] == t;
      assert ([a] + t)[1..] == t;
    }
  }

  /** `s.split(sep)`: the pieces between occurrences of `sep`; "" splits into [""]. */
  function Split(s: string, sep: char): (r: seq<string>)
    ensures |r| >= 1
    ensures forall i :: 0 <= i < |r| ==> sep !in r[i]
    ensures Join(r, sep) == s
    decreases |s|
  {
    if |s| == 0 then [""]
    else
      var rest := Split(s[1..], sep);
      if s[0] == sep then
        assert ([""] + rest)[1..] == rest;
        [""] + rest
      else
        assert rest == [rest[0]] + rest[1..];
        JoinConsChar(s[0], rest[0], rest[1..], sep);
        assert s == [s[0]] + s[1..];
        [[s[0]] + rest[0]] + rest[1..]
  }

  lemma {:induction false} SplitNoSep(a: string, sep: char)
    requires sep !in a
    ensures Split(a, sep) == [a]
    decreases |a|
  {
    if |a| > 0 {
      SplitNoSep(a[1..], sep);
      assert a == [a[0]] + a[1..];
    }
  }

  lemma {:induction false} SplitAfterPiece(a: string, b: string, sep: char)
    requires sep !in a
    ensures Split(a + [sep] + b, sep) == [a] + Split(b, sep)
    decreases |a|
  {
    var s := a + [sep] + b;
    if |a| == 0 {
      assert s[1..] == b;
    } else {
      assert s[1..] == a[1..] + [sep] + b;
      SplitAfterPiece(a[1..], b, sep);
      assert a == [a[0]] + a[1..];
    }
  }

  /** Splitting a join of separator-free pieces gives the pieces back. */
  lemma {:induction false} SplitJoin(xs: seq<string>, sep: char)
    requires |xs| >= 1
    requires forall i :: 0 <= i < |xs| ==> sep !in xs[i]
    ensures Split(Join(xs, sep), sep) == xs
    decreases |xs|
  {
    if |xs| == 1 {
      SplitNoSep(xs[0], sep);
    } else {
      SplitAfterPiece(xs[0], Join(xs[1..], sep), sep);
      SplitJoin(xs[1..], sep);
      assert xs == [xs[0]] + xs[1..];
    }
  }

  /** JavaScript's `\s`: the ECMAScript white space and line terminator characters. */
  predicate IsJsSpace(c: char)
  {
    || c in {'\t', '\n', '\U{000B}', '\U{000C}', '\r', ' ', '\U{00A0}', '\U{1680}',
             '\U{2028}', '\U{2029}', '\U{202F}', '\U{205F}', '\U{3000}', '\U{FEFF}'}
    || ('\U{2000}' <= c <= '\U{200A}')
  }

  function TrimSpaces(s: string): (r: string)
    ensures |r| <= |s| && r == s[|s| - |r|..]
    ensures r == "" || !IsJsSpace(r[0])
    ensures forall i :: 0 <= i < |s| - |r| ==> IsJsSpace(s[i])
  {
    if |s| > 0 && IsJsSpace(s[0]) then TrimSpaces(s[1..]) else s
  }

  function LowerAscii(c: char): char
  {
    if 'A' <= c <= 'Z' then (c as int + 32) as char else c
  }

  /** The header starts with the word `Bearer` (in any letter case when `ignoreCase`)
      followed by at least one white-space character. */
  predicate BearerAt(h: string, ignoreCase: bool)
  {
    && |h| > 6
    && (if ignoreCase then seq(6, i requires 0 <= i < 6 => LowerAscii(h[i])) == "bearer"
        else h[..6] == "Bearer")
    && IsJsSpace(h[6])
  }

  /** `h.replace(/^Bearer\s+/, '')`, or with the `i` flag when `ignoreCase`. */
  function StripBearer(h: string, ignoreCase: bool): (r: string)
    ensures !BearerAt(h, ignoreCase) ==> r == h
    ensures BearerAt(h, ignoreCase) ==>
              && |r| < |h| - 6 && r == h[|h| - |r|..]
              && (r == "" || !IsJsSpace(r[0]))
              && forall i :: 6 <= i < |h| - |r| ==> IsJsSpace(h[i])
  {
    if BearerAt(h, ignoreCase) then
      TrimFrom(h, 7);
      TrimCutsSpaces(h, 7);
      TrimSpaces(h[7..])
    else h
  }

  /** Trimming the tail of `h` from position `k` leaves a suffix of `h`. */
  lemma TrimFrom(h: string, k: nat)
    requires k <= |h|
    ensures TrimSpaces(h[k..]) == h[|h| - |TrimSpaces(h[k..])|..]
  {
    var u := h[k..];
    var t := TrimSpaces(u);
    assert u[|u| - |t|..] == h[|h| - |t|..];
  }

  /** What the trim cuts between `k` and the suffix it keeps is white space. */
  lemma TrimCutsSpaces(h: string, k: nat)
    requires k <= |h|
    ensures forall i :: k <= i < |h| - |TrimSpaces(h[k..])| ==> IsJsSpace(h[i])
  {
    var u := h[k..];
    forall i | k <= i < |h| - |TrimSpaces(u)|
      ensures IsJsSpace(h[i])
    {
      assert h[i] == u[i - k];
    }
  }

  /** The header a client builds from a token is read back as that token. */
  lemma BearerRoundTrip(t: string, ignoreCase: bool)
    requires t == "" || !IsJsSpace(t[0])
    ensures StripBearer("Bearer " + t, ignoreCase) == t
  {
    var h := "Bearer " + t;
    assert h[..6] == "Bearer";
    assert seq(6, i requires 0 <= i < 6 => LowerAscii(h[i])) == "bearer";
    assert h[7..] == t;
  }

  predicate IsDigit(c: char)
  {
    '0' <= c <= '9'
  }

  function DigitsValue(s: string): (n: nat)
    requires forall i :: 0 <= i < |s| ==> IsDigit(s[i])
  {
    if |s| == 0 then 0
    else
      var last := s[|s| - 1];
      assert IsDigit(last);
      DigitsValue(s[..|s| - 1]) * 10 + (last as int - '0' as int)
  }

  /** The white space Postgres' integer input skips before and after the number (the C
      `isspace` set). */
  predicate IsPgSpace(c: char)
  {
    c in {' ', '\t', '\n', '\r', '\U{000B}', '\U{000C}'}
  }

  /** An optional sign followed by at least one decimal digit. */
  predicate SignedDigits(t: string)
  {
    var k := if |t| > 0 && (t[0] == '-' || t[0] == '+') then 1 else 0;
    k < |t| && forall i :: k <= i < |t| ==> IsDigit(t[i])
  }

  function SignedValue(t: string): int
    requires SignedDigits(t)
  {
    if t[0] == '-' then 0 - DigitsValue(t[1..]) as int
    else if t[0] == '+' then DigitsValue(t[1..])
    else DigitsValue(t)
  }

  /** The range of the `serial` id column, a 32-bit `integer`. */
  const Int4Min := -0x8000_0000
  const Int4Max := 0x7FFF_FFFF

  /** `s[i..j]` is a signed number and everything around it is skipped white space. */
  predicate NumberAt(s: string, i: int, j: int)
  {
    && 0 <= i <= j <= |s|
    && (forall k :: 0 <= k < i ==> IsPgSpace(s[k]))
    && (forall k :: j <= k < |s| ==> IsPgSpace(s[k]))
    && SignedDigits(s[i..j])
  }

  /** The number of white-space characters `s` starts with. */
  function LeadingSpaces(s: string): (n: nat)
    ensures n <= |s|
    ensures forall k :: 0 <= k < n ==> IsPgSpace(s[k])
    ensures n == |s| || !IsPgSpace(s[n])
  {
    if |s| > 0 && IsPgSpace(s[0]) then
      var n := 1 + LeadingSpaces(s[1..]);
      assert forall k :: 1 <= k < n ==> s[k] == s[1..][k - 1];
      n
    else 0
  }

  /** The length of `s` without the white space it ends with. */
  function CoreEnd(s: string): (n: nat)
    ensures n <= |s|
    ensures forall k :: n <= k < |s| ==> IsPgSpace(s[k])
    ensures n == 0 || !IsPgSpace(s[n - 1])
  {
    if |s| > 0 && IsPgSpace(s[|s| - 1]) then CoreEnd(s[..|s| - 1]) else |s|
  }

  /** Where a number sits in `s` is decided by `s`: the white space around it cannot
      be cut anywhere else, because a number starts with a sign or a digit and ends
      with a digit. */
  lemma NumberAtUnique(s: string, i: int, j: int)
    requires NumberAt(s, i, j)
    ensures i == LeadingSpaces(s) && j == i + CoreEnd(s[i..])
  {
    var t := s[i..j];
    assert !IsPgSpace(s[i]) by { assert s[i] == t[0]; }
    assert !IsPgSpace(s[j - 1]) by { assert s[j - 1] == t[|t| - 1]; assert IsDigit(t[|t| - 1]); }
    var u := s[i..];
    var e := CoreEnd(u);
    assert u[j - i - 1] == s[j - 1];
    assert forall k :: j - i <= k < |u| ==> u[k] == s[i + k];
    if e > 0 {
      assert u[e - 1] == s[i + e - 1];
    }
  }

  /** Postgres' text-to-integer input for the id column: white space, an optional sign
      and at least one decimal digit, then white space again, with a value the column's
      32-bit range holds. `None` is the "invalid input syntax" or "out of range" error. */
  function ParseInt(s: string): (r: Option<int>)
    ensures (forall i, j :: !NumberAt(s, i, j)) ==> r.None?
    ensures forall i, j :: NumberAt(s, i, j) ==>
              r == if Int4Min <= SignedValue(s[i..j]) <= Int4Max then Some(SignedValue(s[i..j])) else None
  {
    var i := LeadingSpaces(s);
    var j := i + CoreEnd(s[i..]);
    assert forall a, b :: NumberAt(s, a, b) ==> a == i && b == j by {
      forall a, b | NumberAt(s, a, b)
        ensures a == i && b == j
      {
        NumberAtUnique(s, a, b);
      }
    }
    if NumberAt(s, i, j) && Int4Min <= SignedValue(s[i..j]) <= Int4Max then Some(SignedValue(s[i..j]))
    else None
  }

  lemma {:induction false} DecimalDigits(n: nat)
    ensures forall i :: 0 <= i < |NatToDecimal(n)| ==> IsDigit(NatToDecimal(n)[i])
    ensures DigitsValue(NatToDecimal(n)) == n
    decreases n
  {
    var d := "0123456789"[n % 10];
    if n >= 10 {
      DecimalDigits(n / 10);
      var s := NatToDecimal(n);
      assert s == NatToDecimal(n / 10) + [d];
      assert s[..|s| - 1] == NatToDecimal(n / 10);
    }
  }

  /** The decimal text of an integer is a signed number of that value. */
  lemma PrintedNumber(n: int)
    ensures SignedDigits(IntToText(n)) && SignedValue(IntToText(n)) == n
  {
    var t := IntToText(n);
    if n < 0 {
      DecimalDigits(-n);
      assert t[1..] == NatToDecimal(-n);
    } else {
      DecimalDigits(n);
      assert IsDigit(t[0]);
    }
  }

  /** An id of the column's range printed in decimal is parsed back to the same id. */
  lemma ParseIntRoundTrip(n: int)
    requires Int4Min <= n <= Int4Max
    ensures ParseInt(IntToText(n)) == Some(n)
  {
    var t := IntToText(n);
    PrintedNumber(n);
    assert t[0..|t|] == t;
    assert NumberAt(t, 0, |t|);
  }
}
